=== FILE: README.md ===
# Ambulance proximity backend — a Dafny model

This project models the core of a NestJS backend that stores ambulances and hospitals as
geolocated rows and answers "which ambulance is nearest to hospital H". The answer is cached
for a configurable time-to-live. The model covers:

- the GeoJSON point encoding (`createPoint` / `pointToCoordinates`, longitude first, as in
  section 3.1.1 of RFC 7946);
- the two tables as sequences of rows in insertion order, with their column constraints
  (unique id and vehicle number, `varchar(50)`, `varchar(255)`, 32-bit `int`, the NOT NULL
  status, and text that cannot hold U+0000);
- the ambulance and hospital services (create, find, find-or-NotFound, the three ambulance
  updates, the nearest-to-point query);
- request-body validation of every DTO, over a small JSON value type, and the `fromEntity`
  response mappings;
- the TTL result cache, and the nearest-ambulance resolver as a state machine over
  (hospitals, ambulances, cache), in both copies (`ProximityService` and `HospitalsService`),
  together with `invalidateCache`;
- the two exception filters' choice of `statusCode`, `message`, `error` and `errors`;
- the insert-if-absent seed loops, generic over the list of seed records, and the
  count-gated bootstrap that runs them.

Everything is a pure function of the state it reads. Values the running system takes from
outside are parameters:

- the geodesic distance (PostGIS `ST_Distance`) is a function `dist: (Point, Point) -> real`;
- the clock is `now`, in milliseconds;
- the configured `cache.ttl` is given as what `parseInt(CACHE_TTL, 10)` returns, an optional
  integer with none for NaN; `|| 300` turns NaN and 0 into 300 seconds and keeps any other
  value, negative ones included;
- the ids the database generates are parameters (`id`, or `newId(n)` for the n-th seed record);
- the `HttpStatus` reverse lookup is a map from status to name.

Four behaviours of the code are easy to miss, and the model keeps them:

- The nearest query has no status filter: busy and en-route ambulances are candidates too.
  (Among equal distances the database's choice is unspecified; the model picks the first row
  in table order.)
- A negative `CACHE_TTL` survives `|| 300`, and the Redis store then refuses every cache
  write, so each call that misses the cache and finds an answer fails after computing it
  (`ProximityService.NegativeTtlFailsEveryMiss`).
- Ambulance writes do not invalidate cached answers. `ProximityService.MoveServesStaleAnswer`
  proves that a moved ambulance is still reported at its old position until the entry
  expires.
- A `varchar(n)` column accepts a longer string when everything past the n-th character is
  spaces, and stores it cut to n characters (PostgreSQL's rule). Uniqueness and the seed
  lookups see the stored value; the create responses echo the value as sent.

## Model

| member | source | states |
|---|---|---|
| Spatial.CreatePoint | src/common/types/spatial.types.ts:11-16 | the point is tagged "Point" and stores longitude at index 0, latitude at index 1 |
| Spatial.PointToCoordinates | src/common/types/spatial.types.ts:18-23 | longitude is read from index 0 and latitude from index 1 |
| Spatial.CoordinatesRoundTrip | src/common/types/spatial.types.ts:11-23 | reading back a created point gives exactly the (latitude, longitude) it was built from |
| Spatial.PointRoundTrip | src/common/types/spatial.types.ts:1-23 | every point is rebuilt exactly from its own coordinates |
| Spatial.CreatePointInjective | src/common/types/spatial.types.ts:11-16 | two created points are equal if and only if their latitudes and longitudes are |
| Spatial.SwappedReadingDiffers | src/common/types/spatial.types.ts:1-4 | reading a stored position latitude-first gives a wrong pair whenever the two numbers differ |
| Rows.VarcharValue | src/ambulances/entities/ambulance.entity.ts:13-14 | the stored string is a prefix of the given one of at most n characters, equal to it exactly when it fits, and an accepted overflow cut off only spaces |
| Rows.VarcharValueStable | src/hospitals/entities/hospital.entity.ts:7-8 | a stored value fits its column and is stored unchanged a second time |
| Rows.FindFirst | src/ambulances/ambulances.service.ts:99-101 | `findOne({ where })` finds the first matching row, and finds none exactly when no row matches |
| AmbulanceEntity.ParseStatus | src/ambulances/entities/ambulance.entity.ts:5-9 | a string names a status exactly when it is one of available, en_route, busy, and it maps back to that string |
| AmbulanceEntity.ParseStatusValue | src/ambulances/entities/ambulance.entity.ts:5-9 | every status is recovered from its stored string |
| AmbulanceEntity.IndexOfId | src/ambulances/ambulances.service.ts:99-101 | the lookup by id finds a row carrying the id, or none exactly when no row has it |
| AmbulanceEntity.IndexOfVehicle | src/database/seeds/ambulances.seed.ts:162-164 | the lookup by vehicle number finds a row carrying it, or none exactly when no row has it |
| AmbulanceEntity.Stored | src/ambulances/entities/ambulance.entity.ts:13-14 | the stored row differs from the given one only in its vehicle number, which is the varchar(50) value |
| AmbulanceEntity.VehicleNumberError | src/ambulances/entities/ambulance.entity.ts:13-14 | a vehicle number passes its column's own checks exactly when it holds no U+0000 and varchar(50) accepts it; a U+0000 is reported first |
| AmbulanceEntity.Insert | src/ambulances/entities/ambulance.entity.ts:13-14 | a save of a new row succeeds exactly when the vehicle number holds no U+0000 and is accepted by varchar(50), the id is fresh and no row holds the stored vehicle number; a bad vehicle number is reported before any key clash; it appends the row as stored, keeps keys unique and every vehicle number within 50 characters |
| AmbulanceEntity.InsertNullStatus | src/ambulances/entities/ambulance.entity.ts:16-21 | a save whose status is an explicit NULL always fails, since the column is NOT NULL: with the vehicle number's own error when it has one, which is the error any status would meet, and with a not-null violation otherwise |
| HospitalEntity.IndexOfId | src/hospitals/hospitals.service.ts:62-64 | the lookup by id finds a row carrying the id, or none exactly when no row has it |
| HospitalEntity.Stored | src/hospitals/entities/hospital.entity.ts:7-8 | the stored row differs from the given one only in its name, which is the varchar(255) value |
| HospitalEntity.Insert | src/hospitals/entities/hospital.entity.ts:7-17 | a save succeeds exactly when no name, address or specialty holds U+0000, the bed count fits a 32-bit int, the name is accepted by varchar(255) and the id is fresh; the bound values are refused in column order (a U+0000 in name, then in address, then a bed count out of range, then a U+0000 in a specialty), before the name's length and the key; it appends the row as stored, keeps ids unique and every name within 255 characters |
| HospitalEntity.BedCountBeforeSpecialties | src/hospitals/entities/hospital.entity.ts:13-17 | a bed count of 3000000000 with a U+0000 in a specialty is refused for the bed count |
| AmbulanceDto.ParseCreateAmbulance | src/ambulances/dto/ambulance.dto.ts:16-36 | a body is accepted exactly when vehicleNumber is a non-empty string, status is omitted or a status value, and latitude and longitude are numbers in range that print in decimal form (zero or at least 0.000001 in size); null is kept apart from an omitted status; a refusal names exactly the failing properties |
| AmbulanceDto.ParseUpdateLocation | src/ambulances/dto/ambulance.dto.ts:38-53 | accepted exactly when latitude and longitude are in range and print in decimal form, and status is omitted or valid; the parsed fields are the body's |
| AmbulanceDto.ParseUpdateStatus | src/ambulances/dto/ambulance.dto.ts:55-60 | accepted exactly when a valid status is present; otherwise the error names "status" |
| AmbulanceDto.ParseUpdatePosition | src/ambulances/dto/ambulance.dto.ts:62-82 | the intended check (see Findings): accepted exactly when coordinates is one object whose lat and lng are present, numeric, in range and print in decimal form; a missing or non-object coordinates, arrays included, is reported alone |
| AmbulanceDto.ParseUpdatePositionAsWritten | src/ambulances/dto/ambulance.dto.ts:76-82 | the decorators as declared: accepted exactly when coordinates is non-empty and passes nested validation, which an array passes when each item does; only an object yields a position |
| AmbulanceDto.AsWrittenAgreesOffArrays | src/ambulances/dto/ambulance.dto.ts:62-82 | whenever coordinates is not an array, the decorators and the intended check accept the same bodies and yield the same position |
| AmbulanceDto.EmptyCoordinatesAccepted | src/ambulances/dto/ambulance.dto.ts:76-82 | a body whose coordinates is the empty array passes the decorators and is refused by the intended check |
| AmbulanceDto.StatusInputOf | src/ambulances/dto/ambulance.dto.ts:22-25 | an accepted optional status is absent exactly when the property is missing, null exactly when it is null, and otherwise the status its string names |
| AmbulanceDto.OptionalStatusOf | src/ambulances/dto/ambulance.dto.ts:22-25 | an omitted (null or undefined) status gives none; a present one gives the status its string names |
| AmbulanceDto.RequiredStatusOf | src/ambulances/dto/ambulance.dto.ts:55-59 | the parsed status is the one the body's string names |
| AmbulanceDto.FromEntity | src/ambulances/dto/ambulance.dto.ts:106-117 | id, vehicle number and status are copied; latitude and longitude are the point's coordinates |
| AmbulanceDto.FromEntityCreatedPoint | src/ambulances/dto/ambulance.dto.ts:106-117 | a row whose point was built from (lat, lon) responds with (lat, lon) |
| AmbulanceDto.FromEntityLossless | src/ambulances/dto/ambulance.dto.ts:106-117 | the row is rebuilt exactly from its response |
| HospitalDto.ParseCreateHospital | src/hospitals/dto/hospital.dto.ts:16-47 | accepted exactly when name and address are non-empty strings, coordinates are in range and print in decimal form, numberOfBeds is an integer of at least 1, and specialties is omitted or an array of strings; a refusal names exactly the failing properties |
| HospitalDto.FromEntity | src/hospitals/dto/hospital.dto.ts:77-90 | fields are copied, a missing specialties array becomes [], and the coordinates come from the point |
| HospitalDto.FromEntityLossless | src/hospitals/dto/hospital.dto.ts:77-90 | the response loses nothing except whether a missing specialties array was missing or empty |
| JsonValues.Strings | src/hospitals/dto/hospital.dto.ts:42-46 | an all-string array gives the list of its strings, position by position |
| Validators.Report | src/hospitals/dto/hospital.dto.ts:16-47 | a property is listed as a violation exactly when its checks fail |
| ResultCache.Get | src/proximity/proximity.service.ts:29-31 | a stored value is returned exactly while its entry is live |
| ResultCache.Set | src/proximity/proximity.service.ts:55 | the key is overwritten with an entry expiring ttl after now; every other key is kept |
| ResultCache.Delete | src/proximity/proximity.service.ts:60-63 | exactly the key is removed; other entries are kept |
| ResultCache.GetAfterSet | src/proximity/proximity.service.ts:55 | a written value is read back until its TTL runs out and not after |
| ResultCache.GetAfterSetOther | src/proximity/proximity.service.ts:55 | writing one key changes no other key's reading |
| ResultCache.GetAfterDelete | src/proximity/proximity.service.ts:60-63 | after a delete the key misses and every other key reads as before |
| ResultCache.DeleteIdempotent | src/proximity/proximity.service.ts:60-63 | deleting twice is deleting once, and deleting a missing key changes nothing |
| Proximity.CacheKey | src/proximity/proximity.service.ts:27 | the key is the prefix "nearest_ambulance:hospital:" followed by the hospital id |
| Proximity.CacheKeyInjective | src/proximity/proximity.service.ts:27 | two hospitals share a key if and only if they have the same id |
| Proximity.TtlSeconds | src/config/redis.config.ts:9 | the parsed `CACHE_TTL` is used when it is a non-zero number; NaN and 0 give 300 seconds; the result is never 0 |
| Proximity.TtlMillis | src/proximity/proximity.service.ts:55 | the cache receives the TTL in whole milliseconds, exactly 1000 per second |
| Proximity.DefaultTtlIsFiveMinutes | src/config/redis.config.ts:9 | with `CACHE_TTL` unset, unparsable or 0 an entry lives 300000 ms |
| Proximity.StoreRefusesExactlyNegativeTtl | src/proximity/proximity.service.ts:55 | the store refuses the configured TTL exactly when `CACHE_TTL` parses to a negative number |
| Proximity.Round | src/proximity/proximity.service.ts:51 | the rounded value is within one half of the input, halves going up |
| Proximity.RoundHundredths | src/proximity/proximity.service.ts:51 | the distance in hundredths is within one half of the exact scaled distance |
| Proximity.RoundIsNearest | src/proximity/proximity.service.ts:51 | no integer is closer to a value than its rounding |
| Proximity.RoundMonotone | src/proximity/proximity.service.ts:51 | rounding never reorders two distances |
| AmbulancesService.Create | src/ambulances/ambulances.service.ts:19-31 | a row with the vehicle number as its column stores it, the given status or else available, and the point from (lat, lon) is appended; it fails exactly when the status is null, the vehicle number holds U+0000 or overflows varchar(50), or a key clashes, with a not-null violation for a null status on an otherwise storable number; the response echoes the vehicle number as sent |
| AmbulancesService.CreateFromBody | src/ambulances/ambulances.service.ts:19-31 | an invalid body is refused with its violations and writes nothing; a valid one is created as parsed |
| AmbulancesService.NullStatusIsRefused | src/ambulances/ambulances.service.ts:19-31 | a valid body whose status is null never creates a row and fails in the database |
| AmbulancesService.NulVehicleNumberIsRefused | src/ambulances/entities/ambulance.entity.ts:13-14 | a valid body whose vehicle number is "A", U+0000, "B" fails with the database refusing the text |
| AmbulancesService.LatitudeOutOfRangeIsRefused | src/ambulances/dto/ambulance.dto.ts:27-30 | a latitude of 95 is refused, and the refusal names "latitude" |
| AmbulancesService.TinyLatitudeIsRefused | src/ambulances/dto/ambulance.dto.ts:27-30 | a latitude of 0.0000001, which JavaScript prints as "1e-7", is refused, and the refusal names "latitude" |
| AmbulancesService.FindAll | src/ambulances/ambulances.service.ts:33-38 | one response per row, in row order |
| AmbulancesService.FindOneEntity | src/ambulances/ambulances.service.ts:98-108 | the row with the id, or NotFound "Ambulance with ID … not found" exactly when none exists |
| AmbulancesService.FindOne | src/ambulances/ambulances.service.ts:40-50 | the response of the row with the id, or NotFound exactly when none exists |
| AmbulancesService.UpdateLocation | src/ambulances/ambulances.service.ts:52-69 | only that row changes: its point becomes (lat, lon), its status changes only when one is given, id and vehicle number are kept; an unknown id fails with NotFound |
| AmbulancesService.UpdateStatus | src/ambulances/ambulances.service.ts:71-81 | only the row's status changes; an unknown id fails with NotFound |
| AmbulancesService.UpdatePosition | src/ambulances/ambulances.service.ts:83-96 | only the row's point changes, to (coordinates.lat, coordinates.lng); the response is the updated row's, with its id, vehicle number and status; an unknown id fails with NotFound |
| AmbulancesService.NearestIndex | src/ambulances/ambulances.service.ts:114-127 | the chosen row is at least as close as every row, and strictly closer than every earlier row |
| AmbulancesService.NearestIgnoresStatus | src/ambulances/ambulances.service.ts:114-127 | two tables with the same locations choose the same row, whatever the statuses |
| AmbulancesService.FindNearestToPoint | src/ambulances/ambulances.service.ts:110-137 | on a non-empty table a row of minimum distance to the point, with that distance; NotFound "No ambulances available" exactly when the table is empty |
| HospitalsService.Create | src/hospitals/hospitals.service.ts:28-42 | the row carries the body's fields with the name as its column stores it, specialties default to [], the point comes from (lat, lon); it fails exactly when a text value holds U+0000, the bed count leaves 32 bits, the name overflows varchar(255) or the id clashes; the response echoes the name as sent |
| HospitalsService.CreateFromBody | src/hospitals/hospitals.service.ts:28-42 | an invalid body is refused with its violations and writes nothing; a valid one is created as parsed |
| HospitalsService.FindAll | src/hospitals/hospitals.service.ts:44-47 | one response per row, in row order |
| HospitalsService.FindOneEntity | src/hospitals/hospitals.service.ts:61-71 | the row with the id, or NotFound "Hospital with ID … not found" exactly when none exists |
| HospitalsService.FindOne | src/hospitals/hospitals.service.ts:49-59 | the response of the row with the id, or NotFound exactly when none exists |
| HospitalsService.QueryPointIsHospitalLocation | src/hospitals/hospitals.service.ts:89-95 | the point the query is given is the hospital's stored point |
| HospitalsService.FindNearestAmbulance | src/hospitals/hospitals.service.ts:73-104 | a live entry is returned marked cached with nothing written; otherwise an unknown hospital or no ambulances fail with NotFound and write nothing; otherwise, when the store accepts the configured TTL (never for a negative `CACHE_TTL`), a nearest ambulance with its rounded distance is returned uncached and written for that TTL in milliseconds, and when it refuses it the call fails with the refusal and writes nothing |
| ProximityService.FindNearestAmbulance | src/proximity/proximity.service.ts:24-58 | the same cache-then-compute contract, including the refused write of a negative TTL; the tables are never changed |
| ProximityService.InvalidateCache | src/proximity/proximity.service.ts:60-63 | the hospital's key is removed and every other entry is kept |
| ProximityService.EndpointsAgree | src/hospitals/hospitals.service.ts:73-104 | both endpoints give the same answer and leave the same cache, so a result cached by one is a hit for the other |
| ProximityService.SecondCallHits | src/proximity/proximity.service.ts:33-57 | after a fresh answer, a call within the TTL returns the same ambulance and distance marked cached and writes nothing |
| ProximityService.ExpiredEntryRecomputes | src/proximity/proximity.service.ts:29-38 | an expired entry is ignored: the call answers as if the key had been invalidated, and never as cached |
| ProximityService.InvalidateThenRecompute | src/proximity/proximity.service.ts:60-63 | after invalidation the next call fails exactly when the hospital or every ambulance is missing or the store refuses the TTL, and otherwise computes a fresh answer |
| ProximityService.InvalidateKeepsOthers | src/proximity/proximity.service.ts:60-63 | invalidating one hospital leaves every other hospital's reading unchanged |
| ProximityService.FailureCachesNothing | src/proximity/proximity.service.ts:40-55 | a failed call leaves the whole state unchanged and is a NotFound or the store's refusal of the TTL; with a TTL the store accepts it is always a NotFound |
| ProximityService.NegativeTtlFailsEveryMiss | src/proximity/proximity.service.ts:49-57 | with a negative `CACHE_TTL`, every call that misses the cache and finds the hospital and an ambulance fails with the store's refusal and writes nothing |
| ProximityService.MoveServesStaleAnswer | src/ambulances/ambulances.service.ts:52-69 | a move does not invalidate the entry: within the TTL the cached answer is served again, and if it named the moved ambulance it still reports the old position, which differs from the moved row |
| ExceptionFilters.StatusName | src/common/filters/http-exception.filter.ts:38 | the status name when the lookup has one, the fallback otherwise |
| ExceptionFilters.HttpExceptionBody | src/common/filters/http-exception.filter.ts:13-45 | success is false and the status is the exception's; an array message gives its head as message and the array as errors; any other message field is used as is; no message field falls back to the exception message |
| ExceptionFilters.AllExceptionsBody | src/common/filters/http-exception.filter.ts:50-75 | HTTP exceptions keep their status, anything else is 500; Errors keep their message, other values read "Internal server error" |
| ExceptionFilters.NotFoundBody | src/common/filters/http-exception.filter.ts:23-37 | a NotFound reaches the client as 404 with its own message and no errors list |
| ExceptionFilters.ValidationBody | src/common/filters/http-exception.filter.ts:23-31 | a validation failure lists every message under errors, its first as message, and an empty list leaves message undefined |
| ExceptionFilters.MessageHeadsErrors | src/common/filters/http-exception.filter.ts:25-31 | whenever errors is present, message is its first entry, and undefined exactly when it is empty |
| ExceptionFilters.FiltersAgreeOnStatus | src/common/filters/http-exception.filter.ts:55-58 | given an HTTP exception both filters report the same status and success flag |
| ExceptionFilters.QueryFailureIsInternal | src/common/filters/http-exception.filter.ts:55-63 | a non-HTTP error becomes a 500 carrying its own message |
| Seeding.SeedFrom | src/database/seeds/hospitals.seed.ts:211-230 | a run never changes or removes rows already in the table |
| Seeding.SeedAddsSeedRows | src/database/seeds/hospitals.seed.ts:217-224 | every added row is the stored row built for some seed record |
| Seeding.SeedAddsFreshKeys | src/database/seeds/hospitals.seed.ts:211-216 | when storing keeps every seed key, no added row repeats the key of an earlier row |
| Seeding.SeedCoversEveryKey | src/database/seeds/hospitals.seed.ts:211-230 | a run that did not fail leaves, for every seed record, a row with its key or with the key its stored row carries |
| Seeding.SeedSkipsPresentKeys | src/database/seeds/hospitals.seed.ts:226-228 | when every seed key is already present, a run changes nothing |
| Seeding.SeedPreserves | src/database/seeds/hospitals.seed.ts:211-230 | a table property that every successful insert keeps holds after a run |
| Seeding.SeedKeepsKeysDistinct | src/database/seeds/ambulances.seed.ts:161-178 | when storing keeps every seed key, keys distinct before a run stay distinct after it |
| HospitalSeeds.SeedRow | src/database/seeds/hospitals.seed.ts:217-223 | the row carries the seed's name and specialties and the point from (lat, lon) |
| HospitalSeeds.NamesFitAreKept | src/database/seeds/hospitals.seed.ts:212-214 | storing leaves every seed name as it is exactly when every seed name fits 255 characters |
| HospitalSeeds.SeedHospitals | src/database/seeds/hospitals.seed.ts:211-230 | existing rows are kept, only stored seed rows are appended, names of added rows are new when the seed names fit, a completed run leaves every seed name present as given or as stored, and names stay within their column |
| HospitalSeeds.SeedLeavesStoredNames | src/database/seeds/hospitals.seed.ts:211-230 | on a table whose names fit, a completed run leaves every seed name as its column stores it |
| HospitalSeeds.SeedHospitalsIdempotent | src/database/seeds/hospitals.seed.ts:211-230 | when the seed names fit their column, a second run after a completed one inserts nothing |
| HospitalSeeds.OverflowingNameIsSeededAgain | src/database/seeds/hospitals.seed.ts:212-224 | a seed name of 255 letters and a space is stored cut, missed by the next lookup, and inserted a second time |
| AmbulanceSeeds.SeedRow | src/database/seeds/ambulances.seed.ts:167-171 | the row carries the seed's vehicle number and status and the point from (lat, lon) |
| AmbulanceSeeds.SeedAmbulances | src/database/seeds/ambulances.seed.ts:161-178 | existing rows are kept, only stored seed rows are appended, unique keys and vehicle numbers within 50 characters are kept, and a completed run leaves every seed vehicle number present as given or as stored |
| AmbulanceSeeds.SeedVehicleExactlyOnce | src/database/seeds/ambulances.seed.ts:161-177 | on a table with unique keys and fitting vehicle numbers, a completed run leaves every seed vehicle number, as stored, on exactly one row |
| AmbulanceSeeds.SeedAmbulancesIdempotent | src/database/seeds/ambulances.seed.ts:161-178 | when the seed vehicle numbers fit their column, a second run after a completed one inserts nothing |
| SeedingService.OnApplicationBootstrap | src/database/seeding.service.ts:14-43 | a table is seeded only when its count is 0, nothing happens when both have rows, a seeding failure is logged instead of failing start-up, and a completed run leaves every seed key present as its column stores it |
| SeedingService.CompletedRunsLeaveSeeds | src/database/seeding.service.ts:21-35 | a completed run on an empty table leaves every seed name and vehicle number as its column stores it |

## Findings

| source | as written | input that shows it | evidently intended | confidence | as-written member | corrected member |
|---|---|---|---|---|---|---|
| src/ambulances/dto/ambulance.dto.ts:76-82 | `coordinates` is guarded only by `@IsNotEmpty()` and `@ValidateNested()`; nested validation passes an array whose items all pass, so the empty array is accepted | `{"coordinates": []}` (`AmbulanceDto.EmptyCoordinatesAccepted`) | `coordinates` is one object with valid `lat` and `lng`, as the property's type and the service's use of `coordinates.lat` assume | not executed | AmbulanceDto.ParseUpdatePositionAsWritten | AmbulanceDto.ParseUpdatePosition |

## Left out

- Geodesic distance: PostGIS `ST_Distance` on geography is a parameter `dist`; the model proves nothing about its values.
- Floating point: coordinates and distances are exact reals. `Math.round(d * 100) / 100` is kept as an integer number of hundredths and not divided back into a double.
- Timestamps: `createdAt`, `updatedAt` and the filters' `timestamp` are not modelled.
- The request path in error bodies, the HTTP response object, and all logging (`console.log`, `Logger`).
- Redis and cache-manager internals: the cache is a map from key to (value, expiry), and the clock is a parameter. Of the Redis store's behaviour only its refusal of an expiry that is not positive is kept.
- Controllers, modules, `main.ts`, `app.module.ts`, the standalone `seed.ts` script and the Swagger decorators: they only route to the services.
- Environment parsing of the cache configuration: how `parseInt` reads the `CACHE_TTL` string (whitespace, sign, digits up to the first other character) is not modelled; the parameter is its result, with none standing for NaN. The `300` default of `configService.get` never applies, since the loaded configuration always defines `cache.ttl`.
- `createResponse` of the response utility: a plain wrapper.
- The literal seed data: the seed loops are generic over any list of records.
- Concurrency: requests are modelled one at a time, so concurrent misses and racing updates are not.
- Datastore timeouts and connection failures, including `CREATE EXTENSION` and the count queries of the bootstrap.
- The class-validator machinery: each decorator is a predicate on the JSON value. `@IsLatitude`/`@IsLongitude` test the number's printed form against a decimal pattern; the model keeps the range and the one printing rule that matters for numbers in range (sizes below 0.000001 print with an exponent and are refused), not the pattern itself. String forms accepted by these decorators, the global `whitelist`/`forbidNonWhitelisted` options, and the exact wording of validation messages are not modelled. Only the names of the failing properties are kept.
- AmbulanceDto.OptionalStatusOf: used only by the location update, where an explicit `null` status means "no change", as the service's truthiness test does. The create path keeps `null` apart (`AmbulanceDto.StatusInputOf`), since there TypeORM writes it as `NULL` into a NOT NULL column.
- The primary key: `id` is declared by `BaseEntity` in `src/common/entities/base.entity.ts`, which is not part of this model, so the key column's type is unknown here. Ids are modelled as plain strings compared for equality.
- AmbulancesService.FindOneEntity: an id that is not found gives NotFound. If the key column is a `uuid` or an integer, an id of the wrong syntax (or one holding U+0000) is refused by the database with an error instead, which the filters answer with 500; that path is not modelled.
- HospitalsService.FindOneEntity: the same as for ambulances. A malformed id, which a typed key column would refuse with a database error (500), is modelled as NotFound. The operations built on it (`FindOne`, the updates, both `FindNearestAmbulance`) inherit this.
- The HttpStatus enum: it is a map from status code to name passed to the filters.
- Row order of `find()` and the nearest query: the database gives no order, so it is modelled as insertion order.
- AmbulancesService.FindNearestToPoint: among equally distant rows the earliest in table order is chosen. The database's choice among equal distances is unspecified.
- Id generation: database-generated ids are parameters. A clashing id is refused like any other unique violation.
- The HttpException filter's treatment of a non-array `message` of a type other than string is kept as given; the shape of the NestJS `NotFoundException` and `BadRequestException` responses is built by hand (`ExceptionFilters.NotFoundException`, `ExceptionFilters.BadRequestException`).
- AmbulancesService.UpdatePosition: it is given the position of the intended check only. What the running service does with an accepted array, whose `lat` and `lng` are undefined, is not modelled.
- Seeding.SeedAddsFreshKeys: stated only when storing keeps every seed key. A seed key that overflows its column by trailing spaces is stored cut, and the next lookup, which compares the full key, misses it.
- HospitalSeeds.SeedHospitalsIdempotent: proved only for seed names that fit varchar(255); `HospitalSeeds.OverflowingNameIsSeededAgain` shows a longer name ending in a space being inserted by every run.
- AmbulanceSeeds.SeedAmbulancesIdempotent: proved only for seed vehicle numbers that fit varchar(50); for a longer one ending in spaces a second run misses the stored row and its insert is refused as a duplicate.
- The `save` result: TypeORM returns the entity it was given, so the create responses carry the strings as sent, not as stored; the model builds them that way without modelling TypeORM.

=== FILE: ambulance_dto.dfy ===
/**
  Request bodies of the ambulance endpoints, their validation, and the response shape.
  A body is accepted exactly when every property passes its decorators; otherwise the
  names of the failing properties are returned, in declaration order.
 */
module AmbulanceDto {
  import opened Wrappers
  import opened JsonValues
  import opened Spatial
  import opened Validators
  import opened AmbulanceEntity

  /**
    An optional status as the instance holds it once validated: left out (undefined), an
    explicit null, or a value. The two empty forms pass the same decorators but do not reach
    the database alike.
   */
  datatype StatusInput = Absent | Null | Given(status: Status)

  datatype CreateAmbulanceDto = CreateAmbulanceDto(vehicleNumber: string, status: StatusInput, latitude: real, longitude: real)
  datatype UpdateLocationDto = UpdateLocationDto(latitude: real, longitude: real, status: Option<Status>)
  datatype UpdateStatusDto = UpdateStatusDto(status: Status)
  datatype CoordinatesDto = CoordinatesDto(lat: real, lng: real)
  datatype UpdatePositionDto = UpdatePositionDto(coordinates: CoordinatesDto)

  datatype AmbulanceResponse = AmbulanceResponse(id: string, vehicleNumber: string, status: Status, latitude: real, longitude: real)

  // ---- property checks, one per decorated property ----

  /** `@IsEnum(AmbulanceStatus) @IsOptional()` */
  predicate OptionalStatusOk(body: Body, name: string) {
    IsOmitted(Field(body, name)) || IsEnum(Field(body, name), StatusValues)
  }

  /** `@IsEnum(AmbulanceStatus) @IsNotEmpty()` */
  predicate RequiredStatusOk(body: Body, name: string) {
    IsEnum(Field(body, name), StatusValues) && IsNotEmpty(Field(body, name))
  }

  /** The status an accepted optional property stands for; null and undefined both mean "none given". */
  function OptionalStatusOf(body: Body, name: string): (r: Option<Status>)
    requires OptionalStatusOk(body, name)
    ensures r.None? <==> IsOmitted(Field(body, name))
    ensures r.Some? ==> body[name] == JString(StatusValue(r.value))
  {
    if IsOmitted(Field(body, name)) then None else ParseStatus(body[name].s)
  }

  /** The status an accepted optional property holds, keeping null apart from undefined. */
  function StatusInputOf(body: Body, name: string): (r: StatusInput)
    requires OptionalStatusOk(body, name)
    ensures r.Absent? <==> name !in body
    ensures r.Null? <==> name in body && body[name] == JNull
    ensures r.Given? ==> body[name] == JString(StatusValue(r.status))
  {
    if name !in body then Absent
    else if body[name] == JNull then Null
    else Given(ParseStatus(body[name].s).value)
  }

  function RequiredStatusOf(body: Body, name: string): (r: Status)
    requires RequiredStatusOk(body, name)
    ensures body[name] == JString(StatusValue(r))
  {
    ParseStatus(body[name].s).value
  }

  // ---- CreateAmbulanceDto ----

  predicate CreateAmbulanceValid(body: Body) {
    && NonEmptyStringOk(body, "vehicleNumber")
    && OptionalStatusOk(body, "status")
    && LatitudeOk(body, "latitude")
    && LongitudeOk(body, "longitude")
  }

  function ParseCreateAmbulance(body: Body): (r: Result<CreateAmbulanceDto, seq<string>>)
    ensures r.Success? <==> CreateAmbulanceValid(body)
    ensures r.Success? ==>
              && r.value.vehicleNumber != ""
              && body["vehicleNumber"] == JString(r.value.vehicleNumber)
              && (r.value.status.Absent? <==> "status" !in body)
              && (r.value.status.Null? <==> "status" in body && body["status"] == JNull)
              && (r.value.status.Given? ==> body["status"] == JString(StatusValue(r.value.status.status)))
              && body["latitude"] == JNumber(r.value.latitude) && ValidLatitude(r.value.latitude) && PrintsPlain(r.value.latitude)
              && body["longitude"] == JNumber(r.value.longitude) && ValidLongitude(r.value.longitude) && PrintsPlain(r.value.longitude)
    ensures r.Failure? ==>
              && r.error != []
              && ("vehicleNumber" in r.error <==> !NonEmptyStringOk(body, "vehicleNumber"))
              && ("status" in r.error <==> !OptionalStatusOk(body, "status"))
              && ("latitude" in r.error <==> !LatitudeOk(body, "latitude"))
              && ("longitude" in r.error <==> !LongitudeOk(body, "longitude"))
  {
    var violations :=
      Report("vehicleNumber", NonEmptyStringOk(body, "vehicleNumber"))
      + Report("status", OptionalStatusOk(body, "status"))
      + Report("latitude", LatitudeOk(body, "latitude"))
      + Report("longitude", LongitudeOk(body, "longitude"));
    if violations != [] then Failure(violations)
    else
      Success(CreateAmbulanceDto(
        StringOf(body, "vehicleNumber"),
        StatusInputOf(body, "status"),
        NumberOf(body, "latitude"),
        NumberOf(body, "longitude")))
  }

  // ---- UpdateAmbulanceLocationDto ----

  predicate UpdateLocationValid(body: Body) {
    && LatitudeOk(body, "latitude")
    && LongitudeOk(body, "longitude")
    && OptionalStatusOk(body, "status")
  }

  function ParseUpdateLocation(body: Body): (r: Result<UpdateLocationDto, seq<string>>)
    ensures r.Success? <==> UpdateLocationValid(body)
    ensures r.Success? ==>
              && body["latitude"] == JNumber(r.value.latitude) && ValidLatitude(r.value.latitude) && PrintsPlain(r.value.latitude)
              && body["longitude"] == JNumber(r.value.longitude) && ValidLongitude(r.value.longitude) && PrintsPlain(r.value.longitude)
              && (r.value.status.None? <==> IsOmitted(Field(body, "status")))
              && (r.value.status.Some? ==> body["status"] == JString(StatusValue(r.value.status.value)))
    ensures r.Failure? ==>
              && r.error != []
              && ("latitude" in r.error <==> !LatitudeOk(body, "latitude"))
              && ("longitude" in r.error <==> !LongitudeOk(body, "longitude"))
              && ("status" in r.error <==> !OptionalStatusOk(body, "status"))
  {
    var violations :=
      Report("latitude", LatitudeOk(body, "latitude"))
      + Report("longitude", LongitudeOk(body, "longitude"))
      + Report("status", OptionalStatusOk(body, "status"));
    if violations != [] then Failure(violations)
    else
      Success(UpdateLocationDto(
        NumberOf(body, "latitude"),
        NumberOf(body, "longitude"),
        OptionalStatusOf(body, "status")))
  }

  // ---- UpdateAmbulanceStatusDto ----

  function ParseUpdateStatus(body: Body): (r: Result<UpdateStatusDto, seq<string>>)
    ensures r.Success? <==> RequiredStatusOk(body, "status")
    ensures r.Success? ==> body["status"] == JString(StatusValue(r.value.status))
    ensures r.Failure? ==> r.error == ["status"]
  {
    if !RequiredStatusOk(body, "status") then Failure(["status"])
    else Success(UpdateStatusDto(RequiredStatusOf(body, "status")))
  }

  // ---- UpdateAmbulancePositionDto with its nested CoordinatesDto ----

  /** `@IsNumber() @IsLatitude() @IsNotEmpty()` and the longitude counterpart, on the nested object. */
  predicate CoordinatesValid(fields: Body) {
    && LatitudeOk(fields, "lat") && IsNotEmpty(Field(fields, "lat"))
    && LongitudeOk(fields, "lng") && IsNotEmpty(Field(fields, "lng"))
  }

  /**
    The position body as the endpoint evidently intends it: `coordinates` must hold one
    object whose own checks pass. `ParseUpdatePositionAsWritten` below is what the
    decorators alone accept.
   */
  predicate UpdatePositionValid(body: Body) {
    && IsNotEmpty(Field(body, "coordinates"))
    && body["coordinates"].JObject?
    && CoordinatesValid(body["coordinates"].fields)
  }

  function ParseUpdatePosition(body: Body): (r: Result<UpdatePositionDto, seq<string>>)
    ensures r.Success? <==> UpdatePositionValid(body)
    ensures r.Success? ==>
              && body["coordinates"].JObject?
              && body["coordinates"].fields["lat"] == JNumber(r.value.coordinates.lat)
              && body["coordinates"].fields["lng"] == JNumber(r.value.coordinates.lng)
              && ValidLatitude(r.value.coordinates.lat) && PrintsPlain(r.value.coordinates.lat)
              && ValidLongitude(r.value.coordinates.lng) && PrintsPlain(r.value.coordinates.lng)
    ensures r.Failure? ==> r.error != []
    ensures r.Failure? && !(IsNotEmpty(Field(body, "coordinates")) && body["coordinates"].JObject?) ==>
              r.error == ["coordinates"]
  {
    var v := Field(body, "coordinates");
    if !(IsNotEmpty(v) && v.value.JObject?) then Failure(["coordinates"])
    else
      var fields := v.value.fields;
      var violations :=
        Report("coordinates.lat", LatitudeOk(fields, "lat") && IsNotEmpty(Field(fields, "lat")))
        + Report("coordinates.lng", LongitudeOk(fields, "lng") && IsNotEmpty(Field(fields, "lng")));
      if violations != [] then Failure(violations)
      else Success(UpdatePositionDto(CoordinatesDto(NumberOf(fields, "lat"), NumberOf(fields, "lng"))))
  }

  /**
    What `@ValidateNested()` accepts, applied as class-validator applies it: an object must
    pass its own checks, an array passes when each of its items does (so the empty array
    passes), and any other value is refused.
   */
  predicate NestedCoordinatesOk(v: Json)
    decreases v
  {
    match v
    case JObject(fields) => CoordinatesValid(fields)
    case JArray(items) => forall i :: 0 <= i < |items| ==> NestedCoordinatesOk(items[i])
    case _ => false
  }

  /**
    `UpdateAmbulancePositionDto` as its decorators declare it: only `@IsNotEmpty()` and
    `@ValidateNested()` guard `coordinates`, so an array of valid coordinate objects, and
    the empty array, get through. `None` stands for such an array, which carries no single
    position.
   */
  function ParseUpdatePositionAsWritten(body: Body): (r: Result<Option<CoordinatesDto>, seq<string>>)
    ensures r.Success? <==> IsNotEmpty(Field(body, "coordinates")) && NestedCoordinatesOk(body["coordinates"])
    ensures r.Success? ==> (r.value.Some? <==> body["coordinates"].JObject?)
    ensures r.Failure? ==> r.error != []
  {
    var v := Field(body, "coordinates");
    if !IsNotEmpty(v) then Failure(["coordinates"])
    else
      match v.value
      case JObject(_) =>
        (match ParseUpdatePosition(body)
         case Success(dto) => Success(Some(dto.coordinates))
         case Failure(violations) => Failure(violations))
      case JArray(_) => if NestedCoordinatesOk(v.value) then Success(None) else Failure(["coordinates"])
      case _ => Failure(["coordinates"])
  }

  /** On every body whose `coordinates` is not an array, the decorators and the intended check agree. */
  lemma AsWrittenAgreesOffArrays(body: Body)
    requires !("coordinates" in body && body["coordinates"].JArray?)
    ensures ParseUpdatePositionAsWritten(body).Success? <==> ParseUpdatePosition(body).Success?
    ensures ParseUpdatePosition(body).Success? ==>
              ParseUpdatePositionAsWritten(body) == Success(Some(ParseUpdatePosition(body).value.coordinates))
  {
  }

  /**
    `{"coordinates": []}` passes the decorators, which leaves the service no position to
    store, while the intended check refuses it.
   */
  lemma EmptyCoordinatesAccepted()
    ensures ParseUpdatePositionAsWritten(map["coordinates" := JArray([])]) == Success(None)
    ensures ParseUpdatePosition(map["coordinates" := JArray([])]) == Failure(["coordinates"])
  {
  }

  // ---- AmbulanceResponseDto.fromEntity ----

  function FromEntity(a: Ambulance): (r: AmbulanceResponse)
    ensures r.id == a.id && r.vehicleNumber == a.vehicleNumber && r.status == a.status
    ensures Coordinates(r.latitude, r.longitude) == PointToCoordinates(a.location)
  {
    var c := PointToCoordinates(a.location);
    AmbulanceResponse(a.id, a.vehicleNumber, a.status, c.latitude, c.longitude)
  }

  /** A row whose location was built from (latitude, longitude) reports that same pair. */
  lemma FromEntityCreatedPoint(id: string, vehicleNumber: string, status: Status, latitude: real, longitude: real)
    ensures FromEntity(Ambulance(id, vehicleNumber, status, CreatePoint(latitude, longitude)))
            == AmbulanceResponse(id, vehicleNumber, status, latitude, longitude)
  {
  }

  /** The response loses nothing of the row: the row is rebuilt from it exactly. */
  lemma FromEntityLossless(a: Ambulance)
    ensures var r := FromEntity(a);
            Ambulance(r.id, r.vehicleNumber, r.status, CreatePoint(r.latitude, r.longitude)) == a
  {
  }
}

=== FILE: ambulance_entity.dfy ===
/** The `ambulances` table: one row per vehicle, with a unique vehicle number. */
module AmbulanceEntity {
  import opened Wrappers
  import opened Spatial
  import opened Errors
  import opened Rows

  datatype Status = Available | EnRoute | Busy

  /** The string each status is stored and sent as. */
  function StatusValue(s: Status): string {
    match s
    case Available => "available"
    case EnRoute => "en_route"
    case Busy => "busy"
  }

  const StatusValues: set<string> := {"available", "en_route", "busy"}

  /** The column default, used when a row is inserted without a status. */
  const DefaultStatus: Status := Available

  /** `vehicle_number` is a varchar(50). */
  const VehicleNumberLength: nat := 50

  function ParseStatus(v: string): (r: Option<Status>)
    ensures r.Some? <==> v in StatusValues
    ensures r.Some? ==> StatusValue(r.value) == v
  {
    if v == "available" then Some(Available)
    else if v == "en_route" then Some(EnRoute)
    else if v == "busy" then Some(Busy)
    else None
  }

  /** Every status is recovered from the string it is stored as. */
  lemma ParseStatusValue(s: Status)
    ensures StatusValue(s) in StatusValues
    ensures ParseStatus(StatusValue(s)) == Some(s)
  {
  }

  /** An ambulance row; timestamps are not part of this model. */
  datatype Ambulance = Ambulance(id: string, vehicleNumber: string, status: Status, location: Point)

  type Table = seq<Ambulance>

  function IndexOfId(t: Table, id: string): (r: Option<nat>)
    ensures r.Some? ==> r.value < |t| && t[r.value].id == id
    ensures r.None? <==> forall j :: 0 <= j < |t| ==> t[j].id != id
  {
    FindFirst(t, (a: Ambulance) => a.id == id)
  }

  function IndexOfVehicle(t: Table, vehicleNumber: string): (r: Option<nat>)
    ensures r.Some? ==> r.value < |t| && t[r.value].vehicleNumber == vehicleNumber
    ensures r.None? <==> forall j :: 0 <= j < |t| ==> t[j].vehicleNumber != vehicleNumber
  {
    FindFirst(t, (a: Ambulance) => a.vehicleNumber == vehicleNumber)
  }

  /** The primary key and the unique `vehicle_number` column hold no duplicates. */
  predicate UniqueKeys(t: Table) {
    forall i, j :: 0 <= i < j < |t| ==> t[i].id != t[j].id && t[i].vehicleNumber != t[j].vehicleNumber
  }

  /** Every vehicle number stored fits its column, as it does once the column has stored it. */
  predicate ColumnsFit(t: Table) {
    forall j :: 0 <= j < |t| ==> |t[j].vehicleNumber| <= VehicleNumberLength
  }

  /** The row as the table keeps it: the vehicle number as its varchar(50) column holds it. */
  function Stored(a: Ambulance): (s: Ambulance)
    ensures s.vehicleNumber == VarcharValue(a.vehicleNumber, VehicleNumberLength)
    ensures s.(vehicleNumber := a.vehicleNumber) == a
  {
    a.(vehicleNumber := VarcharValue(a.vehicleNumber, VehicleNumberLength))
  }

  /**
    What the vehicle number meets before the table is looked at: a U+0000 is refused as the
    parameter is bound, since no text value can hold it; then the varchar(50) length rule.
   */
  function VehicleNumberError(vehicleNumber: string): (r: Option<QueryError>)
    ensures r.None? <==> StorableText(vehicleNumber) && FitsVarchar(vehicleNumber, VehicleNumberLength)
    ensures !StorableText(vehicleNumber) ==> r == Some(NulInText("vehicle_number"))
    ensures StorableText(vehicleNumber) && r.Some? ==> r == Some(ValueTooLong("vehicle_number"))
  {
    if !StorableText(vehicleNumber) then Some(NulInText("vehicle_number"))
    else if !FitsVarchar(vehicleNumber, VehicleNumberLength) then Some(ValueTooLong("vehicle_number"))
    else None
  }

  /**
    `save` of a new row: appended as the columns store it, unless the value or a column
    constraint refuses it. The uniqueness of `vehicle_number` is judged on the stored value.
   */
  function Insert(t: Table, a: Ambulance): (r: Result<Table, QueryError>)
    ensures r.Success? <==>
              && StorableText(a.vehicleNumber)
              && FitsVarchar(a.vehicleNumber, VehicleNumberLength)
              && (forall j :: 0 <= j < |t| ==> t[j].id != a.id)
              && (forall j :: 0 <= j < |t| ==> t[j].vehicleNumber != VarcharValue(a.vehicleNumber, VehicleNumberLength))
    ensures VehicleNumberError(a.vehicleNumber).Some? ==> r == Failure(VehicleNumberError(a.vehicleNumber).value)
    ensures r.Success? ==> r.value == t + [Stored(a)]
    ensures r.Success? && UniqueKeys(t) ==> UniqueKeys(r.value)
    ensures r.Success? && ColumnsFit(t) ==> ColumnsFit(r.value)
  {
    match VehicleNumberError(a.vehicleNumber)
    case Some(e) => Failure(e)
    case None =>
      if IndexOfId(t, a.id).Some? then Failure(UniqueViolation("id"))
      else if IndexOfVehicle(t, Stored(a).vehicleNumber).Some? then Failure(UniqueViolation("vehicle_number"))
      else Success(t + [Stored(a)])
  }

  /**
    `save` of a new row whose status is an explicit NULL rather than left out. TypeORM sends
    the NULL instead of DEFAULT, and the `status` column is NOT NULL, so the row is always
    refused: by the vehicle number's own checks when it fails them, since the value is coerced
    to its column before the constraints are checked, and by the not-null constraint otherwise,
    which is checked before any unique index is.
   */
  function InsertNullStatus(t: Table, id: string, vehicleNumber: string, location: Point): (r: Result<Table, QueryError>)
    ensures r.Failure?
    ensures r.error == NotNullViolation("status") <==> VehicleNumberError(vehicleNumber).None?
    ensures forall s: Status :: VehicleNumberError(vehicleNumber).Some? ==>
              r == Insert(t, Ambulance(id, vehicleNumber, s, location))
  {
    match VehicleNumberError(vehicleNumber)
    case Some(e) => Failure(e)
    case None => Failure(NotNullViolation("status"))
  }
}

=== FILE: ambulances_service.dfy ===
/**
  The ambulance service: create, read, the three update operations, and the
  nearest-to-point query. Every operation is a function of the table it reads; none of
  them can see the proximity cache.
 */
module AmbulancesService {
  import opened Wrappers
  import opened Spatial
  import opened Errors
  import opened Rows
  import opened JsonValues
  import opened AmbulanceEntity
  import opened AmbulanceDto

  /** The table after a write, and the response built from the written row. */
  datatype Saved = Saved(table: Table, response: AmbulanceResponse)

  /** A nearest row and its raw distance in metres. */
  datatype Nearest = Nearest(ambulance: Ambulance, distance: real)

  function NotFoundMessage(id: string): string {
    "Ambulance with ID " + id + " not found"
  }

  const NoAmbulancesMessage: string := "No ambulances available"

  /** `t'` differs from `t` at most in row `i`. */
  predicate OnlyRowChanged(t: Table, t': Table, i: nat) {
    |t'| == |t| && i < |t| && forall j :: 0 <= j < |t| && j != i ==> t'[j] == t[j]
  }

  /**
    `create`: a row with the given vehicle number, the status given or else the column
    default, and the point built from (latitude, longitude). `id` is the key the database
    generates for the row. A status sent as null reaches the insert as NULL, which the NOT NULL
    column refuses. The row holds the vehicle number as its column stores it; the response is
    built from the entity as sent, so it echoes the number unshortened.
   */
  function Create(t: Table, id: string, dto: CreateAmbulanceDto): (r: Result<Saved, ServiceError>)
    ensures r.Success? <==>
              && !dto.status.Null?
              && StorableText(dto.vehicleNumber)
              && FitsVarchar(dto.vehicleNumber, VehicleNumberLength)
              && (forall j :: 0 <= j < |t| ==> t[j].id != id)
              && (forall j :: 0 <= j < |t| ==> t[j].vehicleNumber != VarcharValue(dto.vehicleNumber, VehicleNumberLength))
    ensures r.Failure? ==> r.error.QueryFailed?
    ensures !StorableText(dto.vehicleNumber) ==> r == Failure(QueryFailed(NulInText("vehicle_number")))
    ensures dto.status.Null? && VehicleNumberError(dto.vehicleNumber).None? ==>
              r == Failure(QueryFailed(NotNullViolation("status")))
    ensures r.Success? ==>
              var t' := r.value.table;
              && |t'| == |t| + 1 && t'[..|t|] == t
              && t'[|t|].id == id
              && t'[|t|].vehicleNumber == VarcharValue(dto.vehicleNumber, VehicleNumberLength)
              && t'[|t|].status == (if dto.status.Given? then dto.status.status else Available)
              && PointToCoordinates(t'[|t|].location) == Coordinates(dto.latitude, dto.longitude)
              && r.value.response == FromEntity(t'[|t|].(vehicleNumber := dto.vehicleNumber))
              && r.value.response.vehicleNumber == dto.vehicleNumber
              && r.value.response.latitude == dto.latitude && r.value.response.longitude == dto.longitude
    ensures r.Success? && UniqueKeys(t) ==> UniqueKeys(r.value.table)
    ensures r.Success? && ColumnsFit(t) ==> ColumnsFit(r.value.table)
  {
    var location := CreatePoint(dto.latitude, dto.longitude);
    match dto.status
    case Null => Failure(QueryFailed(InsertNullStatus(t, id, dto.vehicleNumber, location).error))
    case Absent => InsertRow(t, Ambulance(id, dto.vehicleNumber, DefaultStatus, location))
    case Given(status) => InsertRow(t, Ambulance(id, dto.vehicleNumber, status, location))
  }

  /** `save` of a new row, answering with the entity as sent. */
  function InsertRow(t: Table, row: Ambulance): (r: Result<Saved, ServiceError>)
    ensures r.Success? <==> Insert(t, row).Success?
    ensures r.Failure? ==> r == Failure(QueryFailed(Insert(t, row).error))
    ensures r.Success? ==> r.value == Saved(Insert(t, row).value, FromEntity(row))
  {
    match Insert(t, row)
    case Failure(e) => Failure(QueryFailed(e))
    case Success(t') => Success(Saved(t', FromEntity(row)))
  }

  /** `POST /ambulances`: the body is validated first, and an invalid body writes nothing. */
  function CreateFromBody(t: Table, id: string, body: Body): (r: Result<Saved, ServiceError>)
    ensures !CreateAmbulanceValid(body) ==> r.Failure? && r.error.ValidationFailed? && r.error.properties != []
    ensures CreateAmbulanceValid(body) ==> r == Create(t, id, ParseCreateAmbulance(body).value)
  {
    match ParseCreateAmbulance(body)
    case Failure(violations) => Failure(ValidationFailed(violations))
    case Success(dto) => Create(t, id, dto)
  }

  /** A latitude of 95 is refused before anything is stored. */
  lemma LatitudeOutOfRangeIsRefused(t: Table, id: string, body: Body)
    requires "latitude" in body && body["latitude"] == JNumber(95.0)
    ensures CreateFromBody(t, id, body).Failure?
    ensures CreateFromBody(t, id, body).error.ValidationFailed?
    ensures "latitude" in CreateFromBody(t, id, body).error.properties
  {
  }

  /** A latitude of 0.0000001 prints as "1e-7", which the decimal pattern of `@IsLatitude()` refuses. */
  lemma TinyLatitudeIsRefused(t: Table, id: string, body: Body)
    requires "latitude" in body && body["latitude"] == JNumber(0.0000001)
    ensures CreateFromBody(t, id, body).Failure?
    ensures CreateFromBody(t, id, body).error.ValidationFailed?
    ensures "latitude" in CreateFromBody(t, id, body).error.properties
  {
  }

  /**
    `{"status": null}` passes `@IsOptional()` and reaches the insert as NULL: a body that is
    otherwise valid never creates a row.
   */
  lemma NullStatusIsRefused(t: Table, id: string, body: Body)
    requires CreateAmbulanceValid(body)
    requires "status" in body && body["status"] == JNull
    ensures CreateFromBody(t, id, body).Failure?
    ensures CreateFromBody(t, id, body).error.QueryFailed?
  {
  }

  /** A vehicle number holding U+0000 passes validation and is refused by the database. */
  lemma NulVehicleNumberIsRefused(t: Table, id: string, body: Body)
    requires CreateAmbulanceValid(body)
    requires body["vehicleNumber"] == JString("A\0B")
    ensures CreateFromBody(t, id, body) == Failure(QueryFailed(NulInText("vehicle_number")))
  {
    assert ParseCreateAmbulance(body).value.vehicleNumber[1] == '\0';
  }

  function FindAll(t: Table): (r: seq<AmbulanceResponse>)
    ensures |r| == |t|
    ensures forall i :: 0 <= i < |t| ==> r[i].id == t[i].id && r[i] == FromEntity(t[i])
  {
    seq(|t|, i requires 0 <= i < |t| => FromEntity(t[i]))
  }

  /** `findOneEntity`: the row with the id, or NotFound exactly when there is none. */
  function FindOneEntity(t: Table, id: string): (r: Result<Ambulance, ServiceError>)
    ensures r.Failure? <==> forall j :: 0 <= j < |t| ==> t[j].id != id
    ensures r.Failure? ==> r.error == NotFound(NotFoundMessage(id))
    ensures r.Success? ==> r.value.id == id && r.value in t
  {
    match IndexOfId(t, id)
    case None => Failure(NotFound(NotFoundMessage(id)))
    case Some(i) => Success(t[i])
  }

  function FindOne(t: Table, id: string): (r: Result<AmbulanceResponse, ServiceError>)
    ensures r.Failure? <==> forall j :: 0 <= j < |t| ==> t[j].id != id
    ensures r.Failure? ==> r.error == NotFound(NotFoundMessage(id))
    ensures r.Success? ==> r.value.id == id && exists j :: 0 <= j < |t| && r.value == FromEntity(t[j])
  {
    var a :- FindOneEntity(t, id);
    Success(FromEntity(a))
  }

  /**
    `updateLocation`: the row's location becomes the new point and its status changes only
    when one is given. Unknown ids fail with NotFound; no other row is touched.
   */
  function UpdateLocation(t: Table, id: string, dto: UpdateLocationDto): (r: Result<Saved, ServiceError>)
    ensures r.Failure? <==> forall j :: 0 <= j < |t| ==> t[j].id != id
    ensures r.Failure? ==> r.error == NotFound(NotFoundMessage(id))
    ensures r.Success? ==>
              var i := IndexOfId(t, id).value;
              && OnlyRowChanged(t, r.value.table, i)
              && var row := r.value.table[i];
              && row.id == t[i].id && row.vehicleNumber == t[i].vehicleNumber
              && row.location == CreatePoint(dto.latitude, dto.longitude)
              && row.status == (if dto.status.Some? then dto.status.value else t[i].status)
              && r.value.response == FromEntity(row)
    ensures r.Success? && UniqueKeys(t) ==> UniqueKeys(r.value.table)
  {
    match IndexOfId(t, id)
    case None => Failure(NotFound(NotFoundMessage(id)))
    case Some(i) =>
      var a := t[i];
      var moved := a.(location := CreatePoint(dto.latitude, dto.longitude));
      var updated := if dto.status.Some? then moved.(status := dto.status.value) else moved;
      Success(Saved(t[i := updated], FromEntity(updated)))
  }

  /** `updateStatus`: only the status of the row changes. */
  function UpdateStatus(t: Table, id: string, dto: UpdateStatusDto): (r: Result<Saved, ServiceError>)
    ensures r.Failure? <==> forall j :: 0 <= j < |t| ==> t[j].id != id
    ensures r.Failure? ==> r.error == NotFound(NotFoundMessage(id))
    ensures r.Success? ==>
              var i := IndexOfId(t, id).value;
              && OnlyRowChanged(t, r.value.table, i)
              && r.value.table[i] == t[i].(status := dto.status)
              && r.value.response == FromEntity(r.value.table[i])
    ensures r.Success? && UniqueKeys(t) ==> UniqueKeys(r.value.table)
  {
    var a :- FindOneEntity(t, id);
    var i := IndexOfId(t, id).value;
    var updated := a.(status := dto.status);
    Success(Saved(t[i := updated], FromEntity(updated)))
  }

  /** `updatePosition`: the location becomes the point at (lat, lng); the status is kept. */
  function UpdatePosition(t: Table, id: string, dto: UpdatePositionDto): (r: Result<Saved, ServiceError>)
    ensures r.Failure? <==> forall j :: 0 <= j < |t| ==> t[j].id != id
    ensures r.Failure? ==> r.error == NotFound(NotFoundMessage(id))
    ensures r.Success? ==>
              var i := IndexOfId(t, id).value;
              && OnlyRowChanged(t, r.value.table, i)
              && r.value.table[i] == t[i].(location := CreatePoint(dto.coordinates.lat, dto.coordinates.lng))
              && r.value.response == FromEntity(r.value.table[i])
              && r.value.response.id == id
              && r.value.response.vehicleNumber == t[i].vehicleNumber
              && r.value.response.latitude == dto.coordinates.lat
              && r.value.response.longitude == dto.coordinates.lng
              && r.value.response.status == t[i].status
    ensures r.Success? && UniqueKeys(t) ==> UniqueKeys(r.value.table)
  {
    var a :- FindOneEntity(t, id);
    var i := IndexOfId(t, id).value;
    var updated := a.(location := CreatePoint(dto.coordinates.lat, dto.coordinates.lng));
    Success(Saved(t[i := updated], FromEntity(updated)))
  }

  /**
    `ORDER BY distance ASC LIMIT 1`: the index of a row at minimum distance from `target`,
    over every row whatever its status. Among equally distant rows the earliest is taken.
   */
  function NearestIndex(t: Table, dist: Metric, target: Point): (i: nat)
    requires |t| > 0
    ensures i < |t|
    ensures forall j :: 0 <= j < |t| ==> dist(t[i].location, target) <= dist(t[j].location, target)
    ensures forall j :: 0 <= j < i ==> dist(t[i].location, target) < dist(t[j].location, target)
  {
    if |t| == 1 then 0
    else
      var k := NearestIndex(t[..|t| - 1], dist, target);
      if dist(t[|t| - 1].location, target) < dist(t[k].location, target) then |t| - 1 else k
  }

  /** Statuses play no part in the choice: only locations do. */
  lemma {:induction false} NearestIgnoresStatus(t: Table, u: Table, dist: Metric, target: Point)
    requires |t| == |u| > 0
    requires forall j :: 0 <= j < |t| ==> u[j].location == t[j].location
    ensures NearestIndex(u, dist, target) == NearestIndex(t, dist, target)
  {
    if |t| > 1 {
      NearestIgnoresStatus(t[..|t| - 1], u[..|u| - 1], dist, target);
    }
  }

  /** Row `k` is at least as close to `target` as every row. */
  predicate IsNearest(t: Table, dist: Metric, target: Point, k: int) {
    && 0 <= k < |t|
    && forall j :: 0 <= j < |t| ==> dist(t[k].location, target) <= dist(t[j].location, target)
  }

  /**
    `findNearestToPoint`: the nearest row to the point at (latitude, longitude) with its
    distance, or NotFound when the table is empty.
   */
  function FindNearestToPoint(t: Table, dist: Metric, latitude: real, longitude: real): (r: Result<Nearest, ServiceError>)
    ensures r.Failure? <==> |t| == 0
    ensures r.Failure? ==> r.error == NotFound(NoAmbulancesMessage)
    ensures r.Success? ==>
              var target := CreatePoint(latitude, longitude);
              && r.value.ambulance in t
              && r.value.distance == dist(r.value.ambulance.location, target)
              && forall j :: 0 <= j < |t| ==> r.value.distance <= dist(t[j].location, target)
  {
    if |t| == 0 then Failure(NotFound(NoAmbulancesMessage))
    else
      var target := CreatePoint(latitude, longitude);
      var i := NearestIndex(t, dist, target);
      Success(Nearest(t[i], dist(t[i].location, target)))
  }
}

=== FILE: exception_filter.dfy ===
/**
  How the two exception filters shape an error body. Only the field selection is modelled:
  the timestamp and request path are left out.
 */
module ExceptionFilters {
  import opened Wrappers
  import opened JsonValues
  import opened Errors

  /** What `exception.getResponse()` returns: a plain string or an object. */
  datatype ExceptionResponse = TextResponse(text: string) | ObjectResponse(fields: map<string, Json>)

  datatype HttpException = HttpException(status: int, message: string, response: ExceptionResponse)

  /** What reaches the catch-all filter: an HttpException, another Error, or any other thrown value. */
  datatype Thrown = ThrownHttp(exception: HttpException) | ThrownError(message: string) | ThrownValue

  /**
    The JSON error body. `None` fields are `undefined` and left out of the JSON.
    `statusNames` stands for the reverse lookup `HttpStatus[status]` of the status enum.
   */
  datatype ErrorBody = ErrorBody(
    success: bool,
    statusCode: int,
    message: Option<Json>,
    error: string,
    errors: Option<seq<Json>>)

  const InternalServerError: int := 500

  function StatusName(statusNames: map<int, string>, status: int, fallback: string): (s: string)
    ensures status in statusNames && statusNames[status] != "" ==> s == statusNames[status]
    ensures !(status in statusNames && statusNames[status] != "") ==> s == fallback
  {
    if status in statusNames && statusNames[status] != "" then statusNames[status] else fallback
  }

  /** `HttpExceptionFilter.catch` */
  function HttpExceptionBody(e: HttpException, statusNames: map<int, string>): (b: ErrorBody)
    ensures !b.success && b.statusCode == e.status
    ensures b.error == StatusName(statusNames, e.status, "Error")
    ensures (e.response.TextResponse? || "message" !in e.response.fields) ==>
              b.message == Some(JString(e.message)) && b.errors.None?
    ensures e.response.ObjectResponse? && "message" in e.response.fields ==>
              var m := e.response.fields["message"];
              if m.JArray? then
                && b.errors == Some(m.items)
                && b.message == (if |m.items| > 0 then Some(m.items[0]) else None)
              else
                b.message == Some(m) && b.errors.None?
  {
    var name := StatusName(statusNames, e.status, "Error");
    match e.response
    case TextResponse(_) => ErrorBody(false, e.status, Some(JString(e.message)), name, None)
    case ObjectResponse(fields) =>
      if "message" !in fields then ErrorBody(false, e.status, Some(JString(e.message)), name, None)
      else
        match fields["message"]
        case JArray(items) =>
          ErrorBody(false, e.status, if |items| > 0 then Some(items[0]) else None, name, Some(items))
        case other => ErrorBody(false, e.status, Some(other), name, None)
  }

  /** `AllExceptionsFilter.catch` */
  function AllExceptionsBody(t: Thrown, statusNames: map<int, string>): (b: ErrorBody)
    ensures !b.success && b.errors.None?
    ensures b.statusCode == if t.ThrownHttp? then t.exception.status else InternalServerError
    ensures b.message == Some(JString(
              match t
              case ThrownHttp(e) => e.message
              case ThrownError(m) => m
              case ThrownValue => "Internal server error"))
    ensures b.error == StatusName(statusNames, b.statusCode, "Internal Server Error")
  {
    var status := if t.ThrownHttp? then t.exception.status else InternalServerError;
    var message :=
      match t
      case ThrownHttp(e) => e.message
      case ThrownError(m) => m
      case ThrownValue => "Internal server error";
    ErrorBody(false, status, Some(JString(message)), StatusName(statusNames, status, "Internal Server Error"), None)
  }

  /**
    The exception a NotFound service error becomes: status 404, and the response object
    `{ statusCode, message, error: "Not Found" }` NestJS builds from a string message.
   */
  function NotFoundException(message: string): HttpException {
    HttpException(404, message, ObjectResponse(map[
      "statusCode" := JNumber(404.0),
      "message" := JString(message),
      "error" := JString("Not Found")]))
  }

  /**
    The exception a ValidationPipe rejection becomes: status 400 with the list of
    constraint messages under `message`.
   */
  function BadRequestException(messages: seq<string>): HttpException {
    HttpException(400, "Bad Request Exception", ObjectResponse(map[
      "statusCode" := JNumber(400.0),
      "message" := JArray(seq(|messages|, i requires 0 <= i < |messages| => JString(messages[i]))),
      "error" := JString("Bad Request")]))
  }

  /** A NotFound reaches the client with its own message and no `errors` list. */
  lemma NotFoundBody(message: string, statusNames: map<int, string>)
    ensures var b := HttpExceptionBody(NotFoundException(message), statusNames);
            b.statusCode == 404 && b.message == Some(JString(message)) && b.errors.None? && !b.success
  {
  }

  /** A validation failure reports its first message as `message` and every message under `errors`. */
  lemma ValidationBody(messages: seq<string>, statusNames: map<int, string>)
    ensures var b := HttpExceptionBody(BadRequestException(messages), statusNames);
            && b.statusCode == 400
            && b.errors.Some? && |b.errors.value| == |messages|
            && (forall i :: 0 <= i < |messages| ==> b.errors.value[i] == JString(messages[i]))
            && (messages == [] ==> b.message.None?)
            && (messages != [] ==> b.message == Some(JString(messages[0])))
  {
  }

  /** Whenever `errors` is present and non-empty, `message` is its first entry. */
  lemma MessageHeadsErrors(e: HttpException, statusNames: map<int, string>)
    ensures var b := HttpExceptionBody(e, statusNames);
            b.errors.Some? ==> (b.errors.value == [] <==> b.message.None?)
                               && (b.errors.value != [] ==> b.message == Some(b.errors.value[0]))
  {
  }

  /** The catch-all filter, handed an HttpException, agrees with the specific filter on status and success. */
  lemma FiltersAgreeOnStatus(e: HttpException, statusNames: map<int, string>)
    ensures AllExceptionsBody(ThrownHttp(e), statusNames).statusCode == HttpExceptionBody(e, statusNames).statusCode
    ensures AllExceptionsBody(ThrownHttp(e), statusNames).success == HttpExceptionBody(e, statusNames).success
  {
  }

  /** A query failure is not an HttpException: it becomes a 500 carrying the error's own message. */
  lemma QueryFailureIsInternal(message: string, statusNames: map<int, string>)
    ensures var b := AllExceptionsBody(ThrownError(message), statusNames);
            b.statusCode == 500 && b.message == Some(JString(message))
  {
  }
}

=== FILE: hospital_dto.dfy ===
/** The hospital creation body, its validation, and the response shape. */
module HospitalDto {
  import opened Wrappers
  import opened JsonValues
  import opened Spatial
  import opened Validators
  import opened HospitalEntity

  datatype CreateHospitalDto = CreateHospitalDto(
    name: string,
    address: string,
    latitude: real,
    longitude: real,
    numberOfBeds: int,
    specialties: Option<seq<string>>)

  datatype HospitalResponse = HospitalResponse(
    id: string,
    name: string,
    address: string,
    numberOfBeds: int,
    specialties: seq<string>,
    latitude: real,
    longitude: real)

  /** `@IsInt() @Min(1)` */
  predicate BedsOk(body: Body) {
    IsInt(Field(body, "numberOfBeds")) && Min(Field(body, "numberOfBeds"), 1.0)
  }

  /** `@IsArray() @IsString({ each: true }) @IsOptional()` */
  predicate SpecialtiesOk(body: Body) {
    var v := Field(body, "specialties");
    IsOmitted(v) || (IsArray(v) && IsStringEach(v))
  }

  predicate CreateHospitalValid(body: Body) {
    && NonEmptyStringOk(body, "name")
    && NonEmptyStringOk(body, "address")
    && LatitudeOk(body, "latitude")
    && LongitudeOk(body, "longitude")
    && BedsOk(body)
    && SpecialtiesOk(body)
  }

  function ParseCreateHospital(body: Body): (r: Result<CreateHospitalDto, seq<string>>)
    ensures r.Success? <==> CreateHospitalValid(body)
    ensures r.Success? ==>
              && r.value.name != "" && body["name"] == JString(r.value.name)
              && r.value.address != "" && body["address"] == JString(r.value.address)
              && body["latitude"] == JNumber(r.value.latitude) && ValidLatitude(r.value.latitude) && PrintsPlain(r.value.latitude)
              && body["longitude"] == JNumber(r.value.longitude) && ValidLongitude(r.value.longitude) && PrintsPlain(r.value.longitude)
              && body["numberOfBeds"] == JNumber(r.value.numberOfBeds as real) && r.value.numberOfBeds >= 1
              && (r.value.specialties.None? <==> IsOmitted(Field(body, "specialties")))
              && (r.value.specialties.Some? ==>
                    && body["specialties"].JArray?
                    && |body["specialties"].items| == |r.value.specialties.value|
                    && forall i :: 0 <= i < |r.value.specialties.value| ==>
                         body["specialties"].items[i] == JString(r.value.specialties.value[i]))
    ensures r.Failure? ==>
              && r.error != []
              && ("name" in r.error <==> !NonEmptyStringOk(body, "name"))
              && ("address" in r.error <==> !NonEmptyStringOk(body, "address"))
              && ("latitude" in r.error <==> !LatitudeOk(body, "latitude"))
              && ("longitude" in r.error <==> !LongitudeOk(body, "longitude"))
              && ("numberOfBeds" in r.error <==> !BedsOk(body))
              && ("specialties" in r.error <==> !SpecialtiesOk(body))
  {
    var violations :=
      Report("name", NonEmptyStringOk(body, "name"))
      + Report("address", NonEmptyStringOk(body, "address"))
      + Report("latitude", LatitudeOk(body, "latitude"))
      + Report("longitude", LongitudeOk(body, "longitude"))
      + Report("numberOfBeds", BedsOk(body))
      + Report("specialties", SpecialtiesOk(body));
    if violations != [] then Failure(violations)
    else
      var specialties :=
        if IsOmitted(Field(body, "specialties")) then None
        else Some(Strings(body["specialties"].items));
      Success(CreateHospitalDto(
        body["name"].s,
        body["address"].s,
        body["latitude"].n,
        body["longitude"].n,
        body["numberOfBeds"].n.Floor,
        specialties))
  }

  // ---- HospitalResponseDto.fromEntity ----

  function FromEntity(h: Hospital): (r: HospitalResponse)
    ensures r.id == h.id && r.name == h.name && r.address == h.address && r.numberOfBeds == h.numberOfBeds
    ensures r.specialties == if h.specialties.Some? then h.specialties.value else []
    ensures Coordinates(r.latitude, r.longitude) == PointToCoordinates(h.location)
  {
    var c := PointToCoordinates(h.location);
    HospitalResponse(h.id, h.name, h.address, h.numberOfBeds, h.specialties.GetOr([]), c.latitude, c.longitude)
  }

  /**
    The response keeps everything of a row that carries its specialties array; the only
    information dropped is whether a missing array was missing or empty.
   */
  lemma FromEntityLossless(h: Hospital)
    ensures var r := FromEntity(h);
            Hospital(r.id, r.name, r.address, r.numberOfBeds, Some(r.specialties), CreatePoint(r.latitude, r.longitude))
            == h.(specialties := Some(h.specialties.GetOr([])))
  {
  }
}

=== FILE: hospital_entity.dfy ===
/** The `hospitals` table. */
module HospitalEntity {
  import opened Wrappers
  import opened Spatial
  import opened Errors
  import opened Rows

  /** `name` is a varchar(255). */
  const NameLength: nat := 255

  /** `number_of_beds` is a 32-bit int column. */
  const IntMin: int := -0x8000_0000
  const IntMax: int := 0x7fff_ffff

  /**
    A hospital row; timestamps are not part of this model. `specialties` is `None` when the
    row carries no array, the case the response mapping defaults.
   */
  datatype Hospital = Hospital(
    id: string,
    name: string,
    address: string,
    numberOfBeds: int,
    specialties: Option<seq<string>>,
    location: Point)

  type Table = seq<Hospital>

  function IndexOfId(t: Table, id: string): (r: Option<nat>)
    ensures r.Some? ==> r.value < |t| && t[r.value].id == id
    ensures r.None? <==> forall j :: 0 <= j < |t| ==> t[j].id != id
  {
    FindFirst(t, (h: Hospital) => h.id == id)
  }

  predicate UniqueIds(t: Table) {
    forall i, j :: 0 <= i < j < |t| ==> t[i].id != t[j].id
  }

  /** Every name stored fits its column, as it does once the column has stored it. */
  predicate ColumnsFit(t: Table) {
    forall j :: 0 <= j < |t| ==> |t[j].name| <= NameLength
  }

  /** The row as the table keeps it: the name as its varchar(255) column holds it. */
  function Stored(h: Hospital): (s: Hospital)
    ensures s.name == VarcharValue(h.name, NameLength)
    ensures s.(name := h.name) == h
  {
    h.(name := VarcharValue(h.name, NameLength))
  }

  /** Whether every text value of the row can be stored as text, none holding U+0000. */
  predicate TextsStorable(h: Hospital) {
    && StorableText(h.name)
    && StorableText(h.address)
    && (h.specialties.Some? ==> forall k :: 0 <= k < |h.specialties.value| ==> StorableText(h.specialties.value[k]))
  }

  /**
    `save` of a new row: appended as the columns store it, unless a value or a column
    constraint refuses it. The values are checked in the order PostgreSQL meets them. First
    the bound parameters, one by one in column order: `name`, `address`, `number_of_beds`,
    `specialties`. A U+0000 in a text value or a bed count outside 32 bits refuses the row at
    its parameter. Then the varchar(255) length as the name is coerced to its column, then
    the primary key.
   */
  function Insert(t: Table, h: Hospital): (r: Result<Table, QueryError>)
    ensures r.Success? <==>
              && TextsStorable(h)
              && IntMin <= h.numberOfBeds <= IntMax
              && FitsVarchar(h.name, NameLength)
              && (forall j :: 0 <= j < |t| ==> t[j].id != h.id)
    ensures !StorableText(h.name) ==> r == Failure(NulInText("name"))
    ensures StorableText(h.name) && !StorableText(h.address) ==> r == Failure(NulInText("address"))
    ensures StorableText(h.name) && StorableText(h.address) && !(IntMin <= h.numberOfBeds <= IntMax) ==>
              r == Failure(OutOfRange("number_of_beds"))
    ensures IntMin <= h.numberOfBeds <= IntMax && !TextsStorable(h) ==> r.Failure? && r.error.NulInText?
    ensures r.Success? ==> r.value == t + [Stored(h)]
    ensures r.Success? && UniqueIds(t) ==> UniqueIds(r.value)
    ensures r.Success? && ColumnsFit(t) ==> ColumnsFit(r.value)
  {
    if !StorableText(h.name) then Failure(NulInText("name"))
    else if !StorableText(h.address) then Failure(NulInText("address"))
    else if !(IntMin <= h.numberOfBeds <= IntMax) then Failure(OutOfRange("number_of_beds"))
    else if !TextsStorable(h) then Failure(NulInText("specialties"))
    else if !FitsVarchar(h.name, NameLength) then Failure(ValueTooLong("name"))
    else if IndexOfId(t, h.id).Some? then Failure(UniqueViolation("id"))
    else Success(t + [Stored(h)])
  }

  /**
    The bed count is bound before the specialties: a row with both an out-of-range count and
    a U+0000 in a specialty is refused for the count.
   */
  lemma BedCountBeforeSpecialties(t: Table, p: Point)
    ensures Insert(t, Hospital("i", "n", "a", 3_000_000_000, Some(["\0"]), p)) == Failure(OutOfRange("number_of_beds"))
  {
  }
}

=== FILE: hospitals_service.dfy ===
/**
  The hospital service: create and read, plus its own copy of the cached
  nearest-ambulance query.
 */
module HospitalsService {
  import opened Wrappers
  import opened Spatial
  import opened Errors
  import opened Rows
  import opened JsonValues
  import opened HospitalEntity
  import opened HospitalDto
  import opened ResultCache
  import opened Proximity
  import AmbulanceEntity
  import AmbulanceDto
  import AmbulancesService

  datatype Saved = Saved(table: Table, response: HospitalResponse)

  function NotFoundMessage(id: string): string {
    "Hospital with ID " + id + " not found"
  }

  /**
    `create`: a row with the body's fields, an empty specialties list when none was given,
    and the point built from (latitude, longitude). `id` is the key the database generates.
    The row holds the name as its column stores it; the response is built from the entity
    as sent, so it echoes the name unshortened.
   */
  function Create(t: Table, id: string, dto: CreateHospitalDto): (r: Result<Saved, ServiceError>)
    ensures r.Success? <==>
              && StorableText(dto.name) && StorableText(dto.address)
              && (dto.specialties.Some? ==>
                    forall k :: 0 <= k < |dto.specialties.value| ==> StorableText(dto.specialties.value[k]))
              && IntMin <= dto.numberOfBeds <= IntMax
              && FitsVarchar(dto.name, NameLength)
              && (forall j :: 0 <= j < |t| ==> t[j].id != id)
    ensures r.Failure? ==> r.error.QueryFailed?
    ensures !StorableText(dto.name) ==> r == Failure(QueryFailed(NulInText("name")))
    ensures r.Success? ==>
              var t' := r.value.table;
              && |t'| == |t| + 1 && t'[..|t|] == t
              && t'[|t|].id == id && t'[|t|].name == VarcharValue(dto.name, NameLength)
              && t'[|t|].address == dto.address
              && t'[|t|].numberOfBeds == dto.numberOfBeds
              && t'[|t|].specialties == Some(if dto.specialties.Some? then dto.specialties.value else [])
              && PointToCoordinates(t'[|t|].location) == Coordinates(dto.latitude, dto.longitude)
              && r.value.response == FromEntity(t'[|t|].(name := dto.name))
              && r.value.response.name == dto.name
    ensures r.Success? && UniqueIds(t) ==> UniqueIds(r.value.table)
    ensures r.Success? && ColumnsFit(t) ==> ColumnsFit(r.value.table)
  {
    var row := Hospital(id, dto.name, dto.address, dto.numberOfBeds, Some(dto.specialties.GetOr([])),
                        CreatePoint(dto.latitude, dto.longitude));
    match Insert(t, row)
    case Failure(e) => Failure(QueryFailed(e))
    case Success(t') => Success(Saved(t', FromEntity(row)))
  }

  /** `POST /hospitals`: the body is validated first, and an invalid body writes nothing. */
  function CreateFromBody(t: Table, id: string, body: Body): (r: Result<Saved, ServiceError>)
    ensures !CreateHospitalValid(body) ==> r.Failure? && r.error.ValidationFailed? && r.error.properties != []
    ensures CreateHospitalValid(body) ==> r == Create(t, id, ParseCreateHospital(body).value)
  {
    match ParseCreateHospital(body)
    case Failure(violations) => Failure(ValidationFailed(violations))
    case Success(dto) => Create(t, id, dto)
  }

  /** `findAll`: one response per row, in row order. */
  function FindAll(t: Table): (r: seq<HospitalResponse>)
    ensures |r| == |t|
    ensures forall i :: 0 <= i < |t| ==> r[i].id == t[i].id && r[i] == FromEntity(t[i])
  {
    seq(|t|, i requires 0 <= i < |t| => FromEntity(t[i]))
  }

  /** `findOneEntity`: the row with the id, or NotFound exactly when there is none. */
  function FindOneEntity(t: Table, id: string): (r: Result<Hospital, ServiceError>)
    ensures r.Failure? <==> forall j :: 0 <= j < |t| ==> t[j].id != id
    ensures r.Failure? ==> r.error == NotFound(NotFoundMessage(id))
    ensures r.Success? ==> r.value.id == id && r.value in t
    ensures r.Success? ==> r.value == t[IndexOfId(t, id).value]
  {
    match IndexOfId(t, id)
    case None => Failure(NotFound(NotFoundMessage(id)))
    case Some(i) => Success(t[i])
  }

  function FindOne(t: Table, id: string): (r: Result<HospitalResponse, ServiceError>)
    ensures r.Failure? <==> forall j :: 0 <= j < |t| ==> t[j].id != id
    ensures r.Failure? ==> r.error == NotFound(NotFoundMessage(id))
    ensures r.Success? ==> r.value.id == id && exists j :: 0 <= j < |t| && r.value == FromEntity(t[j])
  {
    var h :- FindOneEntity(t, id);
    Success(FromEntity(h))
  }

  /**
    The hospital's stored point, read back through its coordinates: the query point the
    nearest-ambulance query is given.
   */
  lemma QueryPointIsHospitalLocation(h: Hospital)
    ensures CreatePoint(PointToCoordinates(h.location).latitude, PointToCoordinates(h.location).longitude) == h.location
  {
    PointRoundTrip(h.location);
  }

  // ---- the contract both nearest-ambulance endpoints meet ----

  /**
    A freshly computed answer for the hospital row `h`: the snapshot of a nearest ambulance,
    its distance to the hospital rounded to hundredths, marked as not cached.
   */
  ghost predicate IsFreshResult(ambulances: AmbulanceEntity.Table, dist: Metric, h: Hospital, res: ProximityResult) {
    && !res.fromCache
    && exists k ::
         && AmbulancesService.IsNearest(ambulances, dist, h.location, k)
         && res.ambulance == AmbulanceDto.FromEntity(ambulances[k])
         && res.distance == RoundHundredths(dist(ambulances[k].location, h.location))
  }

  /**
    What `findNearestAmbulance(hospitalId)` does at time `now` (milliseconds), with
    `cacheTtl` the configured `cache.ttl`, if any:
    a live cache entry is returned marked as cached and nothing else happens;
    otherwise an unknown hospital or an empty ambulance table fails with NotFound and the
    cache is untouched; otherwise a fresh result is computed and written under the key for
    the TTL in milliseconds, and returned once the store has accepted the write. A TTL the
    store refuses fails the call after the result was computed, with the cache untouched.
   */
  ghost predicate ResolvesAs(
    hospitals: Table, ambulances: AmbulanceEntity.Table, cache: Cache<ProximityResult>,
    dist: Metric, cacheTtl: Option<int>, now: int, hospitalId: string, r: Resolution)
  {
    var key := CacheKey(hospitalId);
    var found := IndexOfId(hospitals, hospitalId);
    if Live(cache, key, now) then
      r == Resolution(cache, Success(cache[key].value.(fromCache := true)))
    else if found.None? then
      r == Resolution(cache, Failure(NotFound(NotFoundMessage(hospitalId))))
    else if |ambulances| == 0 then
      r == Resolution(cache, Failure(NotFound(AmbulancesService.NoAmbulancesMessage)))
    else if !StoreAccepts(TtlMillis(TtlSeconds(cacheTtl))) then
      r == Resolution(cache, Failure(CacheRefused(TtlMillis(TtlSeconds(cacheTtl)))))
    else
      && r.result.Success?
      && IsFreshResult(ambulances, dist, hospitals[found.value], r.result.value)
      && r.cache == Set(cache, key, r.result.value, TtlMillis(TtlSeconds(cacheTtl)), now)
  }

  /** `HospitalsService.findNearestAmbulance`: cache first, then hospital, then nearest ambulance. */
  function FindNearestAmbulance(
    hospitals: Table, ambulances: AmbulanceEntity.Table, cache: Cache<ProximityResult>,
    dist: Metric, cacheTtl: Option<int>, now: int, hospitalId: string): (r: Resolution)
    ensures ResolvesAs(hospitals, ambulances, cache, dist, cacheTtl, now, hospitalId, r)
  {
    var key := CacheKey(hospitalId);
    match Get(cache, key, now)
    case Some(cached) => Resolution(cache, Success(cached.(fromCache := true)))
    case None =>
      match FindOneEntity(hospitals, hospitalId)
      case Failure(e) => Resolution(cache, Failure(e))
      case Success(h) =>
        var coords := PointToCoordinates(h.location);
        match AmbulancesService.FindNearestToPoint(ambulances, dist, coords.latitude, coords.longitude)
        case Failure(e) => Resolution(cache, Failure(e))
        case Success(n) =>
          QueryPointIsHospitalLocation(h);
          var result := ProximityResult(AmbulanceDto.FromEntity(n.ambulance), RoundHundredths(n.distance), false);
          var ttl := TtlMillis(TtlSeconds(cacheTtl));
          if !StoreAccepts(ttl) then Resolution(cache, Failure(CacheRefused(ttl)))
          else Resolution(Set(cache, key, result, ttl, now), Success(result))
  }
}

=== FILE: json.dfy ===
/** JSON values as they arrive in a request body, before validation. */
module JsonValues {
  import opened Wrappers

  datatype Json =
    | JNull
    | JBool(b: bool)
    | JNumber(n: real)
    | JString(s: string)
    | JArray(items: seq<Json>)
    | JObject(fields: map<string, Json>)

  /** A request body: property name to value. A name absent from the map is `undefined`. */
  type Body = map<string, Json>

  function Field(body: Body, name: string): (v: Option<Json>)
    ensures v.Some? <==> name in body
    ensures v.Some? ==> v.value == body[name]
  {
    if name in body then Some(body[name]) else None
  }

  predicate AllStrings(items: seq<Json>) {
    forall i :: 0 <= i < |items| ==> items[i].JString?
  }

  /** The strings of an array whose every item is a string. */
  function Strings(items: seq<Json>): (r: seq<string>)
    requires AllStrings(items)
    ensures |r| == |items|
    ensures forall i :: 0 <= i < |items| ==> items[i] == JString(r[i])
  {
    seq(|items|, i requires 0 <= i < |items| => items[i].s)
  }
}

=== FILE: proximity_response.dfy ===
/**
  What a nearest-ambulance query returns and caches, and the cache key scheme, TTL and
  rounding that both proximity endpoints share.
 */
module Proximity {
  import opened Wrappers
  import opened Spatial
  import opened Errors
  import opened ResultCache
  import opened AmbulanceDto

  /** `distance` is in hundredths of a metre: the metres rounded to two decimals, times 100. */
  datatype ProximityResult = ProximityResult(ambulance: AmbulanceResponse, distance: int, fromCache: bool)

  /** The cache after a call, and what the call returned or failed with. */
  datatype Resolution = Resolution(cache: Cache<ProximityResult>, result: Result<ProximityResult, ServiceError>)

  const CacheKeyPrefix: string := "nearest_ambulance:hospital:"

  function CacheKey(hospitalId: string): (k: string)
    ensures |k| == |CacheKeyPrefix| + |hospitalId|
    ensures k[..|CacheKeyPrefix|] == CacheKeyPrefix && k[|CacheKeyPrefix|..] == hospitalId
  {
    CacheKeyPrefix + hospitalId
  }

  /** Distinct hospitals never share a cache entry. */
  lemma CacheKeyInjective(a: string, b: string)
    ensures CacheKey(a) == CacheKey(b) <==> a == b
  {
    if CacheKey(a) == CacheKey(b) {
      assert a == CacheKey(a)[|CacheKeyPrefix|..];
    }
  }

  /** The TTL used when `CACHE_TTL` is unset, unparsable or zero. */
  const DefaultTtlSeconds: int := 300

  /**
    `cache.ttl`, computed as `parseInt(CACHE_TTL, 10) || 300`. `parsed` is what `parseInt`
    gives: `None` for NaN, the value of an unset or unparsable variable. NaN and 0 are falsy
    and become the default; any other number, negative ones included, is kept.
   */
  function TtlSeconds(parsed: Option<int>): (s: int)
    ensures s != 0
    ensures parsed.None? || parsed.value == 0 ==> s == DefaultTtlSeconds
    ensures parsed.Some? && parsed.value != 0 ==> s == parsed.value
  {
    if parsed.None? || parsed.value == 0 then DefaultTtlSeconds else parsed.value
  }

  /** The cache is given milliseconds: a whole number of seconds, converted exactly. */
  function TtlMillis(ttlSeconds: int): (ms: int)
    ensures ms % 1000 == 0 && ms / 1000 == ttlSeconds
  {
    ttlSeconds * 1000
  }

  /**
    Whether the Redis store accepts a write with this TTL: it sends the TTL as `PX`, and
    Redis refuses an expiry that is not positive.
   */
  predicate StoreAccepts(ttlMillis: int) {
    ttlMillis > 0
  }

  lemma DefaultTtlIsFiveMinutes()
    ensures TtlMillis(TtlSeconds(None)) == 300_000
    ensures TtlMillis(TtlSeconds(Some(0))) == 300_000
  {
  }

  /** The store refuses the configured TTL exactly when `CACHE_TTL` parses to a negative number. */
  lemma {:induction false} StoreRefusesExactlyNegativeTtl(parsed: Option<int>)
    ensures !StoreAccepts(TtlMillis(TtlSeconds(parsed))) <==> parsed.Some? && parsed.value < 0
  {
    var s := TtlSeconds(parsed);
    assert TtlMillis(s) == s * 1000;
  }

  /** `Math.round(x)`: the integer nearest to `x`, halves rounding up. */
  function Round(x: real): (r: int)
    ensures x - 0.5 < r as real <= x + 0.5
  {
    (x + 0.5).Floor
  }

  /** `Math.round(distance * 100)`: the distance in metres, rounded to hundredths. */
  function RoundHundredths(metres: real): (r: int)
    ensures metres * 100.0 - 0.5 < r as real <= metres * 100.0 + 0.5
  {
    Round(metres * 100.0)
  }

  function Abs(x: real): real {
    if x < 0.0 then -x else x
  }

  /** No integer is closer to `x` than its rounding. */
  lemma RoundIsNearest(x: real, n: int)
    ensures Abs(Round(x) as real - x) <= Abs(n as real - x)
  {
    var r := Round(x);
    if n > r {
      assert n as real >= r as real + 1.0;
    } else if n < r {
      assert n as real <= r as real - 1.0;
    }
  }

  /** Rounding never reorders distances. */
  lemma RoundMonotone(a: real, b: real)
    requires a <= b
    ensures RoundHundredths(a) <= RoundHundredths(b)
  {
  }
}

=== FILE: proximity_service.dfy ===
/**
  The proximity resolver as a state machine over the two tables and the result cache.
  `FindNearestAmbulance` is the cache-then-compute query; `InvalidateCache` drops one
  hospital's entry. Ambulance writes go through `AmbulancesService`, which cannot reach
  the cache, so a move leaves every cached answer in place until it expires.
 */
module ProximityService {
  import opened Wrappers
  import opened Spatial
  import opened Errors
  import opened ResultCache
  import opened Proximity
  import HospitalEntity
  import AmbulanceEntity
  import AmbulanceDto
  import AmbulancesService
  import HospitalsService

  datatype State = State(
    hospitals: HospitalEntity.Table,
    ambulances: AmbulanceEntity.Table,
    cache: Cache<ProximityResult>)

  datatype Outcome = Outcome(state: State, result: Result<ProximityResult, ServiceError>)

  /** `ProximityService.findNearestAmbulance` at time `now` (milliseconds). */
  function FindNearestAmbulance(st: State, dist: Metric, cacheTtl: Option<int>, now: int, hospitalId: string): (r: Outcome)
    ensures r.state.hospitals == st.hospitals && r.state.ambulances == st.ambulances
    ensures HospitalsService.ResolvesAs(st.hospitals, st.ambulances, st.cache, dist, cacheTtl, now, hospitalId,
                       Resolution(r.state.cache, r.result))
  {
    var key := CacheKey(hospitalId);
    match Get(st.cache, key, now)
    case Some(cached) => Outcome(st, Success(cached.(fromCache := true)))
    case None =>
      match HospitalsService.FindOneEntity(st.hospitals, hospitalId)
      case Failure(e) => Outcome(st, Failure(e))
      case Success(h) =>
        var coords := PointToCoordinates(h.location);
        match AmbulancesService.FindNearestToPoint(st.ambulances, dist, coords.latitude, coords.longitude)
        case Failure(e) => Outcome(st, Failure(e))
        case Success(n) =>
          HospitalsService.QueryPointIsHospitalLocation(h);
          var result := ProximityResult(AmbulanceDto.FromEntity(n.ambulance), RoundHundredths(n.distance), false);
          var ttl := TtlMillis(TtlSeconds(cacheTtl));
          if !StoreAccepts(ttl) then Outcome(st, Failure(CacheRefused(ttl)))
          else Outcome(st.(cache := Set(st.cache, key, result, ttl, now)), Success(result))
  }

  /** `invalidateCache`: removes the hospital's entry and nothing else. */
  function InvalidateCache(st: State, hospitalId: string): (r: State)
    ensures r.hospitals == st.hospitals && r.ambulances == st.ambulances
    ensures CacheKey(hospitalId) !in r.cache
    ensures forall k :: k in st.cache && k != CacheKey(hospitalId) ==> k in r.cache && r.cache[k] == st.cache[k]
    ensures r.cache.Keys <= st.cache.Keys
  {
    st.(cache := Delete(st.cache, CacheKey(hospitalId)))
  }

  /** Both endpoints answer identically and leave the same cache: they share one key space. */
  lemma EndpointsAgree(st: State, dist: Metric, cacheTtl: Option<int>, now: int, hospitalId: string)
    ensures var p := FindNearestAmbulance(st, dist, cacheTtl, now, hospitalId);
            var h := HospitalsService.FindNearestAmbulance(st.hospitals, st.ambulances, st.cache, dist, cacheTtl, now, hospitalId);
            p.result == h.result && p.state.cache == h.cache
  {
  }

  /**
    A fresh answer is served again from the cache until its TTL runs out: same ambulance,
    same distance, marked as cached, nothing written. This holds whatever happened to the
    tables in between, as long as the cache was left alone.
   */
  lemma {:induction false} SecondCallHits(
    st: State, later: State, dist: Metric, cacheTtl: Option<int>, t1: int, t2: int, hospitalId: string)
    requires !Live(st.cache, CacheKey(hospitalId), t1)
    requires FindNearestAmbulance(st, dist, cacheTtl, t1, hospitalId).result.Success?
    requires later.cache == FindNearestAmbulance(st, dist, cacheTtl, t1, hospitalId).state.cache
    requires t1 <= t2 < t1 + TtlMillis(TtlSeconds(cacheTtl))
    ensures var first := FindNearestAmbulance(st, dist, cacheTtl, t1, hospitalId).result.value;
            var second := FindNearestAmbulance(later, dist, cacheTtl, t2, hospitalId);
            && !first.fromCache
            && second.result == Success(first.(fromCache := true))
            && second.state == later
  {
    var first := FindNearestAmbulance(st, dist, cacheTtl, t1, hospitalId);
    assert first.state.cache == Set(st.cache, CacheKey(hospitalId), first.result.value, TtlMillis(TtlSeconds(cacheTtl)), t1);
    GetAfterSet(st.cache, CacheKey(hospitalId), first.result.value, TtlMillis(TtlSeconds(cacheTtl)), t1, t2);
  }

  /** Once the entry has expired the next call recomputes, exactly as if it had been invalidated. */
  lemma ExpiredEntryRecomputes(st: State, dist: Metric, cacheTtl: Option<int>, now: int, hospitalId: string)
    requires CacheKey(hospitalId) in st.cache && st.cache[CacheKey(hospitalId)].expiresAt <= now
    ensures var r := FindNearestAmbulance(st, dist, cacheTtl, now, hospitalId);
            && r.result == FindNearestAmbulance(InvalidateCache(st, hospitalId), dist, cacheTtl, now, hospitalId).result
            && (r.result.Success? ==> !r.result.value.fromCache)
  {
  }

  /** After `invalidateCache(h)` the next call for h misses and computes a fresh answer. */
  lemma InvalidateThenRecompute(st: State, dist: Metric, cacheTtl: Option<int>, now: int, hospitalId: string)
    ensures var r := FindNearestAmbulance(InvalidateCache(st, hospitalId), dist, cacheTtl, now, hospitalId);
            var found := HospitalEntity.IndexOfId(st.hospitals, hospitalId);
            && (found.None? || |st.ambulances| == 0 || !StoreAccepts(TtlMillis(TtlSeconds(cacheTtl))) <==> r.result.Failure?)
            && (r.result.Success? ==> HospitalsService.IsFreshResult(st.ambulances, dist, st.hospitals[found.value], r.result.value))
  {
  }

  /** Invalidating one hospital leaves every other hospital's cached answer readable as before. */
  lemma {:induction false} InvalidateKeepsOthers(st: State, hospitalId: string, other: string, now: int)
    requires other != hospitalId
    ensures Get(InvalidateCache(st, hospitalId).cache, CacheKey(other), now) == Get(st.cache, CacheKey(other), now)
  {
    CacheKeyInjective(hospitalId, other);
    GetAfterDelete(st.cache, CacheKey(hospitalId), CacheKey(other), now);
  }

  /**
    A failed query writes nothing: no negative result is cached. With a TTL the store
    accepts, the only failures are the two NotFound cases.
   */
  lemma FailureCachesNothing(st: State, dist: Metric, cacheTtl: Option<int>, now: int, hospitalId: string)
    ensures var r := FindNearestAmbulance(st, dist, cacheTtl, now, hospitalId);
            r.result.Failure? ==>
              && r.state == st
              && (r.result.error.NotFound? || r.result.error == CacheRefused(TtlMillis(TtlSeconds(cacheTtl))))
              && (StoreAccepts(TtlMillis(TtlSeconds(cacheTtl))) ==> r.result.error.NotFound?)
  {
  }

  /**
    With `CACHE_TTL` negative, every call that misses the cache and finds both the hospital
    and an ambulance fails: the store refuses the write and the computed answer is lost.
   */
  lemma {:induction false} NegativeTtlFailsEveryMiss(st: State, dist: Metric, ttl: int, now: int, hospitalId: string)
    requires ttl < 0
    requires !Live(st.cache, CacheKey(hospitalId), now)
    requires HospitalEntity.IndexOfId(st.hospitals, hospitalId).Some? && |st.ambulances| > 0
    ensures var r := FindNearestAmbulance(st, dist, Some(ttl), now, hospitalId);
            && r.state == st
            && r.result == Failure(CacheRefused(ttl * 1000))
  {
    StoreRefusesExactlyNegativeTtl(Some(ttl));
  }

  /**
    Moving an ambulance does not invalidate anything. Within the TTL a fresh answer is served
    again after any move; if it named the moved ambulance and the move changed its position,
    the served answer still reports the old position, which no longer matches the table.
   */
  lemma {:induction false} MoveServesStaleAnswer(
    st: State, dist: Metric, cacheTtl: Option<int>, t1: int, t2: int, hospitalId: string,
    ambulanceId: string, move: AmbulanceDto.UpdateLocationDto)
    requires !Live(st.cache, CacheKey(hospitalId), t1)
    requires t1 <= t2 < t1 + TtlMillis(TtlSeconds(cacheTtl))
    ensures var first := FindNearestAmbulance(st, dist, cacheTtl, t1, hospitalId);
            var moved := AmbulancesService.UpdateLocation(st.ambulances, ambulanceId, move);
            first.result.Success? && moved.Success? ==>
              var answer := first.result.value.ambulance;
              var second := FindNearestAmbulance(first.state.(ambulances := moved.value.table), dist, cacheTtl, t2, hospitalId);
              && second.result == Success(first.result.value.(fromCache := true))
              && (answer.id == ambulanceId && Coordinates(move.latitude, move.longitude) != Coordinates(answer.latitude, answer.longitude)
                  ==> second.result.value.ambulance.id == moved.value.response.id
                      && second.result.value.ambulance != moved.value.response)
  {
    var first := FindNearestAmbulance(st, dist, cacheTtl, t1, hospitalId);
    var moved := AmbulancesService.UpdateLocation(st.ambulances, ambulanceId, move);
    if first.result.Success? && moved.Success? {
      SecondCallHits(st, first.state.(ambulances := moved.value.table), dist, cacheTtl, t1, t2, hospitalId);
    }
  }
}

=== FILE: result_cache.dfy ===
/**
  The key-value cache with per-entry time-to-live that stands in front of the proximity
  query. Time is passed in explicitly, in milliseconds; an entry written at `now` with a
  TTL of `ttl` milliseconds is live while the clock is below `now + ttl`.
 */
module ResultCache {
  import opened Wrappers

  datatype Entry<V> = Entry(value: V, expiresAt: int)

  type Cache<V> = map<string, Entry<V>>

  predicate Live<V>(c: Cache<V>, key: string, now: int) {
    key in c && now < c[key].expiresAt
  }

  /** `cacheManager.get`: the stored value while it is live, nothing once it has expired. */
  function Get<V>(c: Cache<V>, key: string, now: int): (r: Option<V>)
    ensures r.Some? <==> Live(c, key, now)
    ensures r.Some? ==> r.value == c[key].value
  {
    if key in c && now < c[key].expiresAt then Some(c[key].value) else None
  }

  /** `cacheManager.set`: overwrites unconditionally. */
  function Set<V>(c: Cache<V>, key: string, value: V, ttl: int, now: int): (c': Cache<V>)
    ensures c'.Keys == c.Keys + {key}
    ensures c'[key] == Entry(value, now + ttl)
    ensures forall k :: k in c && k != key ==> c'[k] == c[k]
  {
    c[key := Entry(value, now + ttl)]
  }

  /** `cacheManager.del`: removes one key; a missing key is a no-op. */
  function Delete<V>(c: Cache<V>, key: string): (c': Cache<V>)
    ensures c'.Keys == c.Keys - {key}
    ensures forall k :: k in c' ==> c'[k] == c[k]
  {
    c - {key}
  }

  /** A value just written is read back until its TTL runs out, and not after. */
  lemma GetAfterSet<V>(c: Cache<V>, key: string, value: V, ttl: int, now: int, later: int)
    requires now <= later
    ensures Get(Set(c, key, value, ttl, now), key, later) == if later < now + ttl then Some(value) else None
  {
  }

  /** Writing one key changes what no other key reads. */
  lemma GetAfterSetOther<V>(c: Cache<V>, key: string, other: string, value: V, ttl: int, now: int, later: int)
    requires other != key
    ensures Get(Set(c, key, value, ttl, now), other, later) == Get(c, other, later)
  {
  }

  /** After a delete the key misses; every other key reads as before. */
  lemma GetAfterDelete<V>(c: Cache<V>, key: string, other: string, now: int)
    ensures Get(Delete(c, key), key, now).None?
    ensures other != key ==> Get(Delete(c, key), other, now) == Get(c, other, now)
  {
  }

  lemma DeleteIdempotent<V>(c: Cache<V>, key: string)
    ensures Delete(Delete(c, key), key) == Delete(c, key)
    ensures key !in c ==> Delete(c, key) == c
  {
  }
}

=== FILE: rows.dfy ===
/** Lookups over the rows of a table, kept in insertion order. */
module Rows {
  import opened Wrappers

  /** The index of the first row that matches, as `findOne({ where })` returns the first hit. */
  function FindFirst<T>(rows: seq<T>, matches: T -> bool): (r: Option<nat>)
    ensures r.Some? ==> r.value < |rows| && matches(rows[r.value])
    ensures r.Some? ==> forall j :: 0 <= j < r.value ==> !matches(rows[j])
    ensures r.None? <==> forall j :: 0 <= j < |rows| ==> !matches(rows[j])
  {
    if |rows| == 0 then None
    else if matches(rows[0]) then Some(0)
    else
      match FindFirst(rows[1..], matches)
      case None => None
      case Some(k) => Some(k + 1)
  }

  /**
    Whether a `varchar(n)` column accepts `s`: a longer string is refused unless every
    character past the n-th is a space.
   */
  predicate FitsVarchar(s: string, n: nat) {
    |s| <= n || forall k :: n <= k < |s| ==> s[k] == ' '
  }

  /** The string a `varchar(n)` column holds after storing an accepted `s`: the excess spaces are cut. */
  function VarcharValue(s: string, n: nat): (r: string)
    ensures |r| <= n && |r| <= |s| && r == s[..|r|]
    ensures r == s <==> |s| <= n
    ensures FitsVarchar(s, n) ==> forall k :: |r| <= k < |s| ==> s[k] == ' '
  {
    if |s| <= n then s else s[..n]
  }

  /** What the column holds is stored unchanged a second time. */
  lemma VarcharValueStable(s: string, n: nat)
    ensures FitsVarchar(VarcharValue(s, n), n)
    ensures VarcharValue(VarcharValue(s, n), n) == VarcharValue(s, n)
  {
  }

  /** Whether PostgreSQL can hold `s` as text at all: no value of type text contains U+0000. */
  predicate StorableText(s: string) {
    forall k :: 0 <= k < |s| ==> s[k] != '\0'
  }
}

=== FILE: seeding.dfy ===
/**
  The insert-if-absent loop both seed scripts run, over any list of seed records: for each
  record in turn, look for a row with the record's key and insert a new row only when none
  exists. A failed insert throws, which ends the loop; rows inserted before it stay.
 */
module Seeding {
  import opened Wrappers
  import opened Errors
  import opened Rows

  /** The table after a run, and the insert failure that ended it early, if any. */
  datatype SeedRun<T> = SeedRun(table: seq<T>, failure: Option<QueryError>)

  /**
    What a loop is made of: `key` of a record and `rowKey` of a row (the column the lookup
    filters on), `toRow(s, n)` the row built for record `s` at position `n` (the position
    stands for the fresh id the database assigns), `insert` the save, and `store` the row as
    the table keeps it once the save succeeds.
   */
  datatype Loop<!S, !T> = Loop(
    key: S -> string,
    rowKey: T -> string,
    toRow: (S, nat) -> T,
    insert: (seq<T>, T) -> Result<seq<T>, QueryError>,
    store: T -> T)

  /** Some row of `t` carries the key. */
  ghost predicate HasKey<T>(t: seq<T>, rowKey: T -> string, key: string) {
    exists m :: 0 <= m < |t| && rowKey(t[m]) == key
  }

  /** No row at or after position `base` repeats the key of an earlier row. */
  ghost predicate KeysFreshFrom<T>(r: seq<T>, base: int, rowKey: T -> string) {
    forall k, m :: 0 <= m < k < |r| && base <= k ==> rowKey(r[m]) != rowKey(r[k])
  }

  /** The `where: { key }` filter of the lookup. */
  function KeyIs<T>(rowKey: T -> string, key: string): T -> bool {
    (a: T) => rowKey(a) == key
  }

  /** A successful insert appends the row as it is stored, and a record's row carries the record's key. */
  ghost predicate WellKeyed<S(!new), T(!new)>(l: Loop<S, T>) {
    && (forall t, a :: l.insert(t, a).Success? ==> l.insert(t, a).value == t + [l.store(a)])
    && (forall s, n :: l.rowKey(l.toRow(s, n)) == l.key(s))
  }

  /** Storing the row of any record from `i` on leaves the record's key as it was. */
  ghost predicate KeysKept<S, T>(l: Loop<S, T>, seeds: seq<S>, i: nat) {
    forall j, n: nat :: i <= j < |seeds| ==> l.rowKey(l.store(l.toRow(seeds[j], n))) == l.key(seeds[j])
  }

  /** Runs the loop from record `i` on. Rows already in the table are never changed or removed. */
  function SeedFrom<S(!new), T(!new)>(t: seq<T>, seeds: seq<S>, i: nat, l: Loop<S, T>): (r: SeedRun<T>)
    requires i <= |seeds|
    requires WellKeyed(l)
    decreases |seeds| - i
    ensures |t| <= |r.table| && r.table[..|t|] == t
  {
    if i == |seeds| then SeedRun(t, None)
    else if FindFirst(t, KeyIs(l.rowKey, l.key(seeds[i]))).Some? then SeedFrom(t, seeds, i + 1, l)
    else
      match l.insert(t, l.toRow(seeds[i], i))
      case Failure(e) => SeedRun(t, Some(e))
      case Success(t') => SeedFrom(t', seeds, i + 1, l)
  }

  /** Every row a run adds is the stored row of some record at or after `i`. */
  lemma {:induction false} SeedAddsSeedRows<S(!new), T(!new)>(t: seq<T>, seeds: seq<S>, i: nat, l: Loop<S, T>)
    requires i <= |seeds|
    requires WellKeyed(l)
    decreases |seeds| - i
    ensures var r := SeedFrom(t, seeds, i, l).table;
            forall k :: |t| <= k < |r| ==> exists j :: i <= j < |seeds| && r[k] == l.store(l.toRow(seeds[j], j))
  {
    if i < |seeds| {
      if FindFirst(t, KeyIs(l.rowKey, l.key(seeds[i]))).Some? {
        SeedAddsSeedRows(t, seeds, i + 1, l);
        var r := SeedFrom(t, seeds, i, l).table;
        assert r == SeedFrom(t, seeds, i + 1, l).table;
        forall k | |t| <= k < |r|
          ensures exists j :: i <= j < |seeds| && r[k] == l.store(l.toRow(seeds[j], j))
        {
          var j :| i + 1 <= j < |seeds| && r[k] == l.store(l.toRow(seeds[j], j));
        }
      } else if l.insert(t, l.toRow(seeds[i], i)).Success? {
        var t' := l.insert(t, l.toRow(seeds[i], i)).value;
        SeedAddsSeedRows(t', seeds, i + 1, l);
        var r := SeedFrom(t, seeds, i, l).table;
        assert r == SeedFrom(t', seeds, i + 1, l).table;
        forall k | |t| <= k < |r|
          ensures exists j :: i <= j < |seeds| && r[k] == l.store(l.toRow(seeds[j], j))
        {
          if k == |t| {
            assert r[k] == t'[|t|] == l.store(l.toRow(seeds[i], i));
          } else {
            var j :| i + 1 <= j < |seeds| && r[k] == l.store(l.toRow(seeds[j], j));
          }
        }
      }
    }
  }

  /** When storing keeps every key, a row is added only when no earlier row has its key. */
  lemma {:induction false} SeedAddsFreshKeys<S(!new), T(!new)>(t: seq<T>, seeds: seq<S>, i: nat, l: Loop<S, T>)
    requires i <= |seeds|
    requires WellKeyed(l)
    decreases |seeds| - i
    ensures KeysKept(l, seeds, i) ==> KeysFreshFrom(SeedFrom(t, seeds, i, l).table, |t|, l.rowKey)
  {
    if i < |seeds| && KeysKept(l, seeds, i) {
      if FindFirst(t, KeyIs(l.rowKey, l.key(seeds[i]))).Some? {
        SeedAddsFreshKeys(t, seeds, i + 1, l);
        assert KeysKept(l, seeds, i + 1);
      } else if l.insert(t, l.toRow(seeds[i], i)).Success? {
        var t' := l.insert(t, l.toRow(seeds[i], i)).value;
        SeedAddsFreshKeys(t', seeds, i + 1, l);
        assert KeysKept(l, seeds, i + 1);
        var r := SeedFrom(t, seeds, i, l).table;
        assert r == SeedFrom(t', seeds, i + 1, l).table;
        assert r[..|t'|] == t';
        assert KeysFreshFrom(r, |t'|, l.rowKey);
        forall k, m | 0 <= m < k < |r| && |t| <= k
          ensures l.rowKey(r[m]) != l.rowKey(r[k])
        {
          if k == |t| {
            assert r[k] == t'[|t|] == l.store(l.toRow(seeds[i], i));
            assert r[m] == t'[m] == t[m];
          }
        }
      }
    }
  }

  /**
    A run that did not fail leaves, for every record, a row with the record's key or with
    the key of the record's stored row.
   */
  lemma {:induction false} SeedCoversEveryKey<S(!new), T(!new)>(t: seq<T>, seeds: seq<S>, i: nat, l: Loop<S, T>)
    requires i <= |seeds|
    requires WellKeyed(l)
    decreases |seeds| - i
    ensures var r := SeedFrom(t, seeds, i, l);
            r.failure.None? ==>
              forall j :: i <= j < |seeds| ==>
                HasKey(r.table, l.rowKey, l.key(seeds[j])) ||
                HasKey(r.table, l.rowKey, l.rowKey(l.store(l.toRow(seeds[j], j))))
  {
    if i < |seeds| {
      var r := SeedFrom(t, seeds, i, l);
      var found := FindFirst(t, KeyIs(l.rowKey, l.key(seeds[i])));
      if found.Some? {
        SeedCoversEveryKey(t, seeds, i + 1, l);
        assert r.table[found.value] == t[found.value];
      } else if l.insert(t, l.toRow(seeds[i], i)).Success? {
        var t' := l.insert(t, l.toRow(seeds[i], i)).value;
        SeedCoversEveryKey(t', seeds, i + 1, l);
        assert r == SeedFrom(t', seeds, i + 1, l);
        assert r.table[..|t'|] == t';
        assert r.table[|t|] == t'[|t|] == l.store(l.toRow(seeds[i], i));
      }
    }
  }

  /** When every record's key is already present, a run changes nothing. */
  lemma {:induction false} SeedSkipsPresentKeys<S(!new), T(!new)>(t: seq<T>, seeds: seq<S>, i: nat, l: Loop<S, T>)
    requires i <= |seeds|
    requires WellKeyed(l)
    decreases |seeds| - i
    ensures (forall j :: i <= j < |seeds| ==> HasKey(t, l.rowKey, l.key(seeds[j]))) ==>
              SeedFrom(t, seeds, i, l) == SeedRun(t, None)
  {
    if i < |seeds| && forall j :: i <= j < |seeds| ==> HasKey(t, l.rowKey, l.key(seeds[j])) {
      assert HasKey(t, l.rowKey, l.key(seeds[i]));
      var m :| 0 <= m < |t| && l.rowKey(t[m]) == l.key(seeds[i]);
      assert KeyIs(l.rowKey, l.key(seeds[i]))(t[m]);
      SeedSkipsPresentKeys(t, seeds, i + 1, l);
    }
  }

  /** A property of tables that every successful insert keeps holds after a run. */
  lemma {:induction false} SeedPreserves<S(!new), T(!new)>(
    t: seq<T>, seeds: seq<S>, i: nat, l: Loop<S, T>, inv: seq<T> -> bool)
    requires i <= |seeds|
    requires WellKeyed(l)
    requires forall u, a :: inv(u) && l.insert(u, a).Success? ==> inv(l.insert(u, a).value)
    decreases |seeds| - i
    ensures inv(t) ==> inv(SeedFrom(t, seeds, i, l).table)
  {
    if i < |seeds| {
      if FindFirst(t, KeyIs(l.rowKey, l.key(seeds[i]))).Some? {
        SeedPreserves(t, seeds, i + 1, l, inv);
      } else if l.insert(t, l.toRow(seeds[i], i)).Success? {
        SeedPreserves(l.insert(t, l.toRow(seeds[i], i)).value, seeds, i + 1, l, inv);
      }
    }
  }

  /** When storing keeps every key, keys that were distinct before a run are distinct after it. */
  lemma SeedKeepsKeysDistinct<S(!new), T(!new)>(t: seq<T>, seeds: seq<S>, l: Loop<S, T>)
    requires WellKeyed(l)
    requires forall m, k :: 0 <= m < k < |t| ==> l.rowKey(t[m]) != l.rowKey(t[k])
    ensures KeysKept(l, seeds, 0) ==>
              var r := SeedFrom(t, seeds, 0, l).table;
              forall m, k :: 0 <= m < k < |r| ==> l.rowKey(r[m]) != l.rowKey(r[k])
  {
    SeedAddsFreshKeys(t, seeds, 0, l);
    var r := SeedFrom(t, seeds, 0, l).table;
    if KeysKept(l, seeds, 0) {
      forall m, k | 0 <= m < k < |r|
        ensures l.rowKey(r[m]) != l.rowKey(r[k])
      {
        assert r[..|t|] == t;
        if k < |t| {
          assert r[m] == t[m] && r[k] == t[k];
        } else {
          assert KeysFreshFrom(r, |t|, l.rowKey);
        }
      }
    }
  }
}

/** `seedHospitals`: insert-if-absent keyed by hospital name. */
module HospitalSeeds {
  import opened Wrappers
  import opened Spatial
  import opened Errors
  import opened Rows
  import opened HospitalEntity
  import opened Seeding

  datatype HospitalSeed = HospitalSeed(
    name: string,
    address: string,
    latitude: real,
    longitude: real,
    numberOfBeds: int,
    specialties: seq<string>)

  function SeedName(s: HospitalSeed): string { s.name }

  function RowName(h: Hospital): string { h.name }

  /** The row built for a seed record, with the id the database assigns it. */
  function SeedRow(s: HospitalSeed, id: string): (h: Hospital)
    ensures h.name == s.name && h.specialties == Some(s.specialties)
    ensures PointToCoordinates(h.location) == Coordinates(s.latitude, s.longitude)
  {
    Hospital(id, s.name, s.address, s.numberOfBeds, Some(s.specialties), CreatePoint(s.latitude, s.longitude))
  }

  function RowFor(newId: nat -> string): (HospitalSeed, nat) -> Hospital {
    (s: HospitalSeed, n: nat) => SeedRow(s, newId(n))
  }

  /** The loop keyed by name; `newId(n)` is the id the n-th record would get. */
  function SeedLoop(newId: nat -> string): Loop<HospitalSeed, Hospital> {
    Loop(SeedName, RowName, RowFor(newId), Insert, Stored)
  }

  lemma SeedLoopWellKeyed(newId: nat -> string)
    ensures WellKeyed(SeedLoop(newId))
  {
    forall s: HospitalSeed, n: nat
      ensures RowName(RowFor(newId)(s, n)) == SeedName(s)
    {
      assert RowFor(newId)(s, n) == SeedRow(s, newId(n));
    }
  }

  /** No seed name is longer than its column. */
  predicate NamesFit(seeds: seq<HospitalSeed>) {
    forall j :: 0 <= j < |seeds| ==> |seeds[j].name| <= NameLength
  }

  /** Names that fit are stored as they are, so the lookup finds them again. */
  lemma NamesFitAreKept(seeds: seq<HospitalSeed>, newId: nat -> string)
    ensures NamesFit(seeds) <==> KeysKept(SeedLoop(newId), seeds, 0)
  {
    var l := SeedLoop(newId);
    forall j, n: nat | 0 <= j < |seeds|
      ensures l.rowKey(l.store(l.toRow(seeds[j], n))) == VarcharValue(seeds[j].name, NameLength)
    {
      assert l.toRow(seeds[j], n) == SeedRow(seeds[j], newId(n));
    }
    if KeysKept(l, seeds, 0) {
      forall j | 0 <= j < |seeds|
        ensures |seeds[j].name| <= NameLength
      {
        assert l.rowKey(l.store(l.toRow(seeds[j], 0))) == l.key(seeds[j]);
      }
    }
  }

  /** Seed records are inserted in list order; `newId(n)` is the id the n-th record would get. */
  function SeedHospitals(t: Table, seeds: seq<HospitalSeed>, newId: nat -> string): (r: SeedRun<Hospital>)
    ensures |t| <= |r.table| && r.table[..|t|] == t
    ensures forall k :: |t| <= k < |r.table| ==>
              exists j :: 0 <= j < |seeds| && r.table[k] == Stored(SeedRow(seeds[j], newId(j)))
    ensures NamesFit(seeds) ==>
              forall k, m :: 0 <= m < k < |r.table| && |t| <= k ==> r.table[m].name != r.table[k].name
    ensures r.failure.None? ==>
              forall j :: 0 <= j < |seeds| ==>
                HasKey(r.table, RowName, seeds[j].name) ||
                HasKey(r.table, RowName, VarcharValue(seeds[j].name, NameLength))
    ensures (forall j :: 0 <= j < |seeds| ==> HasKey(t, RowName, seeds[j].name)) ==> r == SeedRun(t, None)
    ensures ColumnsFit(t) ==> ColumnsFit(r.table)
  {
    var l := SeedLoop(newId);
    SeedLoopWellKeyed(newId);
    NamesFitAreKept(seeds, newId);
    SeedAddsSeedRows(t, seeds, 0, l);
    SeedAddsFreshKeys(t, seeds, 0, l);
    SeedCoversEveryKey(t, seeds, 0, l);
    SeedSkipsPresentKeys(t, seeds, 0, l);
    SeedPreserves(t, seeds, 0, l, ColumnsFit);
    SeedFrom(t, seeds, 0, l)
  }

  /** On a table whose names fit their column, a completed run leaves every seed name as the column stores it. */
  lemma SeedLeavesStoredNames(t: Table, seeds: seq<HospitalSeed>, newId: nat -> string, j: nat)
    requires ColumnsFit(t)
    requires SeedHospitals(t, seeds, newId).failure.None?
    requires j < |seeds|
    ensures HasKey(SeedHospitals(t, seeds, newId).table, RowName, VarcharValue(seeds[j].name, NameLength))
  {
    var r := SeedHospitals(t, seeds, newId).table;
    if HasKey(r, RowName, seeds[j].name) {
      var m :| 0 <= m < |r| && RowName(r[m]) == seeds[j].name;
      assert |r[m].name| <= NameLength;
    }
  }

  /** When the seed names fit their column, a completed run leaves nothing for a second run to insert. */
  lemma SeedHospitalsIdempotent(t: Table, seeds: seq<HospitalSeed>, newId: nat -> string, laterId: nat -> string)
    requires SeedHospitals(t, seeds, newId).failure.None?
    ensures var once := SeedHospitals(t, seeds, newId).table;
            NamesFit(seeds) ==> SeedHospitals(once, seeds, laterId) == SeedRun(once, None)
  {
  }

  /**
    A seed name of 255 letters and a trailing space is stored cut to the letters; the lookup
    of a second run compares the full name, finds nothing, and inserts the hospital again.
   */
  lemma OverflowingNameIsSeededAgain(newId: nat -> string, laterId: nat -> string)
    requires newId(0) != laterId(0)
    ensures var seeds := [HospitalSeed(seq(NameLength, _ => 'A') + " ", "", 0.0, 0.0, 1, [])];
            var once := SeedHospitals([], seeds, newId);
            var twice := SeedHospitals(once.table, seeds, laterId);
            && once.failure.None? && |once.table| == 1
            && twice.failure.None? && |twice.table| == 2
  {
    var name := seq(NameLength, _ => 'A') + " ";
    var seeds := [HospitalSeed(name, "", 0.0, 0.0, 1, [])];
    assert FitsVarchar(name, NameLength) by {
      assert name[NameLength] == ' ';
    }
    var first := SeedLoop(newId);
    var later := SeedLoop(laterId);
    SeedLoopWellKeyed(newId);
    SeedLoopWellKeyed(laterId);
    var row := Stored(SeedRow(seeds[0], newId(0)));
    assert first.toRow(seeds[0], 0) == SeedRow(seeds[0], newId(0));
    assert FindFirst([], KeyIs(RowName, name)).None?;
    assert SeedRow(seeds[0], newId(0)).name == name;
    assert FitsVarchar(SeedRow(seeds[0], newId(0)).name, NameLength);
    assert Insert([], SeedRow(seeds[0], newId(0))).Success?;
    assert Insert([], SeedRow(seeds[0], newId(0))).value == [] + [row];
    assert [] + [row] == [row];
    assert Insert([], SeedRow(seeds[0], newId(0))) == Success([row]);
    assert SeedFrom([row], seeds, 1, first) == SeedRun([row], None);
    assert SeedFrom([], seeds, 0, first) == SeedRun([row], None);
    assert row.name == VarcharValue(name, NameLength) == name[..NameLength];
    assert FindFirst([row], KeyIs(RowName, name)).None?;
    var again := Stored(SeedRow(seeds[0], laterId(0)));
    assert later.toRow(seeds[0], 0) == SeedRow(seeds[0], laterId(0));
    assert row.id == newId(0) != laterId(0) == SeedRow(seeds[0], laterId(0)).id;
    assert Insert([row], SeedRow(seeds[0], laterId(0))).Success?;
    assert Insert([row], SeedRow(seeds[0], laterId(0))).value == [row] + [again] == [row, again];
    assert SeedFrom([row, again], seeds, 1, later) == SeedRun([row, again], None);
    assert SeedFrom([row], seeds, 0, later) == SeedRun([row, again], None);
  }
}

/** `seedAmbulances`: insert-if-absent keyed by vehicle number. */
module AmbulanceSeeds {
  import opened Wrappers
  import opened Spatial
  import opened Errors
  import opened Rows
  import opened AmbulanceEntity
  import opened Seeding

  datatype AmbulanceSeed = AmbulanceSeed(vehicleNumber: string, status: Status, latitude: real, longitude: real)

  function SeedVehicle(s: AmbulanceSeed): string { s.vehicleNumber }

  function RowVehicle(a: Ambulance): string { a.vehicleNumber }

  function SeedRow(s: AmbulanceSeed, id: string): (a: Ambulance)
    ensures a.vehicleNumber == s.vehicleNumber && a.status == s.status
    ensures PointToCoordinates(a.location) == Coordinates(s.latitude, s.longitude)
  {
    Ambulance(id, s.vehicleNumber, s.status, CreatePoint(s.latitude, s.longitude))
  }

  function RowFor(newId: nat -> string): (AmbulanceSeed, nat) -> Ambulance {
    (s: AmbulanceSeed, n: nat) => SeedRow(s, newId(n))
  }

  /** The loop keyed by vehicle number; `newId(n)` is the id the n-th record would get. */
  function SeedLoop(newId: nat -> string): Loop<AmbulanceSeed, Ambulance> {
    Loop(SeedVehicle, RowVehicle, RowFor(newId), Insert, Stored)
  }

  lemma SeedLoopWellKeyed(newId: nat -> string)
    ensures WellKeyed(SeedLoop(newId))
  {
    forall s: AmbulanceSeed, n: nat
      ensures RowVehicle(RowFor(newId)(s, n)) == SeedVehicle(s)
    {
      assert RowFor(newId)(s, n) == SeedRow(s, newId(n));
    }
  }

  /** The table invariants the constraints of `ambulances` keep. */
  function Sound(t: Table): bool {
    UniqueKeys(t) && ColumnsFit(t)
  }

  /** No seed vehicle number is longer than its column. */
  predicate VehicleNumbersFit(seeds: seq<AmbulanceSeed>) {
    forall j :: 0 <= j < |seeds| ==> |seeds[j].vehicleNumber| <= VehicleNumberLength
  }

  /** Seed records are inserted in list order; `newId(n)` is the id the n-th record would get. */
  function SeedAmbulances(t: Table, seeds: seq<AmbulanceSeed>, newId: nat -> string): (r: SeedRun<Ambulance>)
    ensures |t| <= |r.table| && r.table[..|t|] == t
    ensures forall k :: |t| <= k < |r.table| ==>
              exists j :: 0 <= j < |seeds| && r.table[k] == Stored(SeedRow(seeds[j], newId(j)))
    ensures Sound(t) ==> Sound(r.table)
    ensures r.failure.None? ==>
              forall j :: 0 <= j < |seeds| ==>
                HasKey(r.table, RowVehicle, seeds[j].vehicleNumber) ||
                HasKey(r.table, RowVehicle, VarcharValue(seeds[j].vehicleNumber, VehicleNumberLength))
    ensures (forall j :: 0 <= j < |seeds| ==> HasKey(t, RowVehicle, seeds[j].vehicleNumber)) ==> r == SeedRun(t, None)
  {
    var l := SeedLoop(newId);
    SeedLoopWellKeyed(newId);
    SeedAddsSeedRows(t, seeds, 0, l);
    SeedCoversEveryKey(t, seeds, 0, l);
    SeedSkipsPresentKeys(t, seeds, 0, l);
    SeedPreserves(t, seeds, 0, l, Sound);
    SeedFrom(t, seeds, 0, l)
  }

  /**
    On a table whose vehicle numbers are unique and fit their column, a completed run leaves
    every seed vehicle number, as the column stores it, on exactly one row.
   */
  lemma {:induction false} SeedVehicleExactlyOnce(t: Table, seeds: seq<AmbulanceSeed>, newId: nat -> string, j: nat)
    requires Sound(t)
    requires SeedAmbulances(t, seeds, newId).failure.None?
    requires j < |seeds|
    ensures var r := SeedAmbulances(t, seeds, newId).table;
            var v := VarcharValue(seeds[j].vehicleNumber, VehicleNumberLength);
            exists k :: 0 <= k < |r| && r[k].vehicleNumber == v
                        && forall m :: 0 <= m < |r| && m != k ==> r[m].vehicleNumber != v
  {
    var r := SeedAmbulances(t, seeds, newId).table;
    var v := VarcharValue(seeds[j].vehicleNumber, VehicleNumberLength);
    assert UniqueKeys(r) && ColumnsFit(r);
    var k: nat;
    if HasKey(r, RowVehicle, seeds[j].vehicleNumber) {
      k :| 0 <= k < |r| && RowVehicle(r[k]) == seeds[j].vehicleNumber;
      assert |r[k].vehicleNumber| <= VehicleNumberLength;
    } else {
      assert HasKey(r, RowVehicle, v);
      k :| 0 <= k < |r| && RowVehicle(r[k]) == v;
    }
    assert r[k].vehicleNumber == v;
    forall m | 0 <= m < |r| && m != k
      ensures r[m].vehicleNumber != v
    {
      if m < k {
        assert r[m].vehicleNumber != r[k].vehicleNumber;
      } else {
        assert r[k].vehicleNumber != r[m].vehicleNumber;
      }
    }
  }

  /** When the seed vehicle numbers fit their column, a completed run leaves nothing for a second run to insert. */
  lemma SeedAmbulancesIdempotent(t: Table, seeds: seq<AmbulanceSeed>, newId: nat -> string, laterId: nat -> string)
    requires SeedAmbulances(t, seeds, newId).failure.None?
    ensures var once := SeedAmbulances(t, seeds, newId).table;
            VehicleNumbersFit(seeds) ==> SeedAmbulances(once, seeds, laterId) == SeedRun(once, None)
  {
  }
}

/**
  `onApplicationBootstrap`: each table is seeded only when it is empty, nothing happens when
  both hold rows, and a failure is logged instead of failing the start-up.
 */
module SeedingService {
  import opened Wrappers
  import opened Errors
  import opened Rows
  import opened Seeding
  import HospitalEntity
  import AmbulanceEntity
  import HospitalSeeds
  import AmbulanceSeeds

  datatype Log = Skipped | Completed | FailedAndLogged(error: QueryError)

  datatype Bootstrap = Bootstrap(hospitals: HospitalEntity.Table, ambulances: AmbulanceEntity.Table, log: Log)

  function OnApplicationBootstrap(
    hospitals: HospitalEntity.Table, ambulances: AmbulanceEntity.Table,
    hospitalSeeds: seq<HospitalSeeds.HospitalSeed>, ambulanceSeeds: seq<AmbulanceSeeds.AmbulanceSeed>,
    newHospitalId: nat -> string, newAmbulanceId: nat -> string): (r: Bootstrap)
    ensures (|hospitals| != 0 && |ambulances| != 0) <==> r.log == Skipped
    ensures |hospitals| != 0 ==> r.hospitals == hospitals
    ensures |ambulances| != 0 ==> r.ambulances == ambulances
    ensures |hospitals| == 0 ==> r.hospitals == HospitalSeeds.SeedHospitals(hospitals, hospitalSeeds, newHospitalId).table
    ensures |ambulances| == 0 && r.log != Skipped && (|hospitals| != 0 || HospitalSeeds.SeedHospitals(hospitals, hospitalSeeds, newHospitalId).failure.None?) ==>
              r.ambulances == AmbulanceSeeds.SeedAmbulances(ambulances, ambulanceSeeds, newAmbulanceId).table
    ensures |hospitals| == 0 && HospitalSeeds.SeedHospitals(hospitals, hospitalSeeds, newHospitalId).failure.Some? ==>
              r.ambulances == ambulances && r.log.FailedAndLogged?
    ensures r.log == Completed && |hospitals| == 0 ==>
              forall j :: 0 <= j < |hospitalSeeds| ==>
                HasKey(r.hospitals, HospitalSeeds.RowName, VarcharValue(hospitalSeeds[j].name, HospitalEntity.NameLength))
    ensures r.log == Completed && |ambulances| == 0 ==>
              forall j :: 0 <= j < |ambulanceSeeds| ==>
                HasKey(r.ambulances, AmbulanceSeeds.RowVehicle, VarcharValue(ambulanceSeeds[j].vehicleNumber, AmbulanceEntity.VehicleNumberLength))
  {
    var hospitalCount := |hospitals|;
    var ambulanceCount := |ambulances|;
    if hospitalCount == 0 || ambulanceCount == 0 then
      var h := if hospitalCount == 0 then HospitalSeeds.SeedHospitals(hospitals, hospitalSeeds, newHospitalId)
               else SeedRun(hospitals, None);
      if h.failure.Some? then Bootstrap(h.table, ambulances, FailedAndLogged(h.failure.value))
      else
        var a := if ambulanceCount == 0 then AmbulanceSeeds.SeedAmbulances(ambulances, ambulanceSeeds, newAmbulanceId)
                 else SeedRun(ambulances, None);
        if a.failure.Some? then Bootstrap(h.table, a.table, FailedAndLogged(a.failure.value))
        else
          CompletedRunsLeaveSeeds(hospitals, ambulances, hospitalSeeds, ambulanceSeeds, newHospitalId, newAmbulanceId);
          Bootstrap(h.table, a.table, Completed)
    else
      Bootstrap(hospitals, ambulances, Skipped)
  }

  /** What each completed run on an empty table leaves: every seed key as its column stores it. */
  lemma CompletedRunsLeaveSeeds(
    hospitals: HospitalEntity.Table, ambulances: AmbulanceEntity.Table,
    hospitalSeeds: seq<HospitalSeeds.HospitalSeed>, ambulanceSeeds: seq<AmbulanceSeeds.AmbulanceSeed>,
    newHospitalId: nat -> string, newAmbulanceId: nat -> string)
    ensures |hospitals| == 0 && HospitalSeeds.SeedHospitals(hospitals, hospitalSeeds, newHospitalId).failure.None? ==>
              forall j :: 0 <= j < |hospitalSeeds| ==>
                HasKey(HospitalSeeds.SeedHospitals(hospitals, hospitalSeeds, newHospitalId).table,
                       HospitalSeeds.RowName, VarcharValue(hospitalSeeds[j].name, HospitalEntity.NameLength))
    ensures |ambulances| == 0 && AmbulanceSeeds.SeedAmbulances(ambulances, ambulanceSeeds, newAmbulanceId).failure.None? ==>
              forall j :: 0 <= j < |ambulanceSeeds| ==>
                HasKey(AmbulanceSeeds.SeedAmbulances(ambulances, ambulanceSeeds, newAmbulanceId).table,
                       AmbulanceSeeds.RowVehicle, VarcharValue(ambulanceSeeds[j].vehicleNumber, AmbulanceEntity.VehicleNumberLength))
  {
    if |hospitals| == 0 && HospitalSeeds.SeedHospitals(hospitals, hospitalSeeds, newHospitalId).failure.None? {
      forall j | 0 <= j < |hospitalSeeds|
        ensures HasKey(HospitalSeeds.SeedHospitals(hospitals, hospitalSeeds, newHospitalId).table,
                       HospitalSeeds.RowName, VarcharValue(hospitalSeeds[j].name, HospitalEntity.NameLength))
      {
        HospitalSeeds.SeedLeavesStoredNames(hospitals, hospitalSeeds, newHospitalId, j);
      }
    }
    if |ambulances| == 0 && AmbulanceSeeds.SeedAmbulances(ambulances, ambulanceSeeds, newAmbulanceId).failure.None? {
      forall j | 0 <= j < |ambulanceSeeds|
        ensures HasKey(AmbulanceSeeds.SeedAmbulances(ambulances, ambulanceSeeds, newAmbulanceId).table,
                       AmbulanceSeeds.RowVehicle, VarcharValue(ambulanceSeeds[j].vehicleNumber, AmbulanceEntity.VehicleNumberLength))
      {
        var r := AmbulanceSeeds.SeedAmbulances(ambulances, ambulanceSeeds, newAmbulanceId).table;
        AmbulanceSeeds.SeedVehicleExactlyOnce(ambulances, ambulanceSeeds, newAmbulanceId, j);
        var k :| 0 <= k < |r| && r[k].vehicleNumber == VarcharValue(ambulanceSeeds[j].vehicleNumber, AmbulanceEntity.VehicleNumberLength);
        assert AmbulanceSeeds.RowVehicle(r[k]) == r[k].vehicleNumber;
      }
    }
  }
}

=== FILE: spatial.dfy ===
/**
  Geographic points in the GeoJSON Point shape of RFC 7946 section 3.1.2. A position
  is stored longitude first, latitude second (RFC 7946 section 3.1.1), so converting
  between a (latitude, longitude) pair and a point swaps the order.
 */
module Spatial {

  /** A GeoJSON Point. `coordinates.0` is the longitude, `coordinates.1` the latitude. */
  datatype Point = Point(coordinates: (real, real)) {
    /** The type tag; the GeoJSON member `type` can only ever be "Point". */
    const kind: string := "Point"
  }

  datatype Coordinates = Coordinates(latitude: real, longitude: real)

  /** Geodesic distance in metres from the first point to the second (PostGIS ST_Distance on geography). */
  type Metric = (Point, Point) -> real

  predicate ValidLatitude(x: real) {
    -90.0 <= x <= 90.0
  }

  predicate ValidLongitude(x: real) {
    -180.0 <= x <= 180.0
  }

  function CreatePoint(latitude: real, longitude: real): (p: Point)
    ensures p.kind == "Point"
    ensures p.coordinates.0 == longitude && p.coordinates.1 == latitude
  {
    Point((longitude, latitude))
  }

  function PointToCoordinates(p: Point): (c: Coordinates)
    ensures c.longitude == p.coordinates.0
    ensures c.latitude == p.coordinates.1
  {
    Coordinates(p.coordinates.1, p.coordinates.0)
  }

  /** Building a point and reading it back gives the same latitude and longitude. */
  lemma CoordinatesRoundTrip(latitude: real, longitude: real)
    ensures PointToCoordinates(CreatePoint(latitude, longitude)) == Coordinates(latitude, longitude)
  {
  }

  /** Every point is the point built from its own coordinates. */
  lemma PointRoundTrip(p: Point)
    ensures CreatePoint(PointToCoordinates(p).latitude, PointToCoordinates(p).longitude) == p
  {
  }

  /** Distinct (latitude, longitude) pairs give distinct points. */
  lemma CreatePointInjective(lat1: real, lon1: real, lat2: real, lon2: real)
    ensures CreatePoint(lat1, lon1) == CreatePoint(lat2, lon2) <==> lat1 == lat2 && lon1 == lon2
  {
  }

  /**
    Reading a stored position in (latitude, longitude) order, the classic swap, gives a
    different answer whenever the two numbers differ.
   */
  lemma SwappedReadingDiffers(latitude: real, longitude: real)
    requires latitude != longitude
    ensures Coordinates(CreatePoint(latitude, longitude).coordinates.0,
                        CreatePoint(latitude, longitude).coordinates.1)
            != PointToCoordinates(CreatePoint(latitude, longitude))
  {
  }
}

=== FILE: validators.dfy ===
/**
  The class-validator decorators the DTOs use, as predicates on one property value.
  `None` is a property that is absent from the body (`undefined`).
 */
module Validators {
  import opened Wrappers
  import opened JsonValues
  import opened Spatial

  type Value = Option<Json>

  /** `@IsOptional()`: a null or undefined value skips every other check on the property. */
  predicate IsOmitted(v: Value) {
    v.None? || v.value.JNull?
  }

  /** `@IsNotEmpty()`: anything but '', null and undefined. */
  predicate IsNotEmpty(v: Value) {
    v.Some? && v.value != JNull && v.value != JString("")
  }

  predicate IsString(v: Value) {
    v.Some? && v.value.JString?
  }

  predicate IsNumber(v: Value) {
    v.Some? && v.value.JNumber?
  }

  predicate IsInt(v: Value) {
    IsNumber(v) && v.value.n.Floor as real == v.value.n
  }

  predicate Min(v: Value, bound: real) {
    IsNumber(v) && v.value.n >= bound
  }

  /**
    Whether JavaScript prints the number without an exponent. A non-zero number below
    0.000001 in magnitude prints as, say, "1e-7", which the decimal patterns of
    `@IsLatitude()` and `@IsLongitude()` refuse; every number large enough to print with an
    exponent is out of range anyway.
   */
  predicate PrintsPlain(x: real) {
    x == 0.0 || x >= 0.000001 || x <= -0.000001
  }

  /** `@IsLatitude()` on a number: its printed form is a decimal within [-90, 90]. */
  predicate IsLatitude(v: Value) {
    IsNumber(v) && ValidLatitude(v.value.n) && PrintsPlain(v.value.n)
  }

  /** `@IsLongitude()` on a number: its printed form is a decimal within [-180, 180]. */
  predicate IsLongitude(v: Value) {
    IsNumber(v) && ValidLongitude(v.value.n) && PrintsPlain(v.value.n)
  }

  predicate IsArray(v: Value) {
    v.Some? && v.value.JArray?
  }

  /** `@IsString({ each: true })`: every item of an array is a string; a non-array must be one. */
  predicate IsStringEach(v: Value) {
    if IsArray(v) then AllStrings(v.value.items) else IsString(v)
  }

  /** `@IsEnum(E)`: one of the enum's string values. */
  predicate IsEnum(v: Value, values: set<string>) {
    v.Some? && v.value.JString? && v.value.s in values
  }

  // ---- checks on one named property of a body ----

  /** `@IsString() @IsNotEmpty()` */
  predicate NonEmptyStringOk(body: Body, name: string) {
    IsString(Field(body, name)) && IsNotEmpty(Field(body, name))
  }

  /** `@IsNumber() @IsLatitude()` */
  predicate LatitudeOk(body: Body, name: string) {
    IsNumber(Field(body, name)) && IsLatitude(Field(body, name))
  }

  /** `@IsNumber() @IsLongitude()` */
  predicate LongitudeOk(body: Body, name: string) {
    IsNumber(Field(body, name)) && IsLongitude(Field(body, name))
  }

  function StringOf(body: Body, name: string): string
    requires IsString(Field(body, name))
  {
    body[name].s
  }

  function NumberOf(body: Body, name: string): real
    requires IsNumber(Field(body, name))
  {
    body[name].n
  }

  /** The property name, when its checks failed: one entry of a ValidationPipe error list. */
  function Report(property: string, ok: bool): (r: seq<string>)
    ensures r == [] <==> ok
    ensures r != [] ==> r == [property]
  {
    if ok then [] else [property]
  }
}

=== FILE: wrappers.dfy ===
/** The optional values and call outcomes the rest of the model is written with. */
module Wrappers {

  /** An optional value: a JSON property that may be absent, a lookup that may find nothing. */
  datatype Option<+T> = None | Some(value: T) {

    /** The value, or `default` when absent: the `x || default` idiom on an optional field. */
    function GetOr(default: T): T {
      if Some? then value else default
    }
  }

  /** A service call's outcome. Failure-compatible, so `:-` stops at the first error. */
  datatype Result<+R, +E> = Success(value: R) | Failure(error: E) {

    predicate IsFailure() {
      Failure?
    }

    function PropagateFailure<U>(): Result<U, E>
      requires Failure?
    {
      Failure(error)
    }

    function Extract(): R
      requires Success?
    {
      value
    }
  }
}

/** The errors a service call can end with. */
module Errors {

  /** A statement the database refuses when a row is written. */
  datatype QueryError =
    | UniqueViolation(column: string)   // a primary-key or unique column already holds the value
    | ValueTooLong(column: string)      // a varchar(n) column receives more than n characters
    | OutOfRange(column: string)        // an int column receives a value outside 32 bits
    | NulInText(column: string)         // a text value holds U+0000, which PostgreSQL cannot store
    | NotNullViolation(column: string)  // a NOT NULL column receives an explicit NULL

  datatype ServiceError =
    | NotFound(message: string)                  // NestJS NotFoundException, HTTP 404
    | QueryFailed(cause: QueryError)             // TypeORM QueryFailedError, not an HttpException
    | ValidationFailed(properties: seq<string>)  // ValidationPipe rejection, HTTP 400
    | CacheRefused(ttlMillis: int)               // the cache store rejects a write, not an HttpException
}
